=== FILE: README.md ===
# Grocery app core in Dafny

This project models the sequential logic underneath a React Native grocery app. The app keeps a pantry in Firestore, looks up scanned barcodes in Open Food Facts, suggests TheMealDB recipes for pantry ingredients and has a light/dark theme. The model covers five areas:

- **Scan lock** (`ScanLock`, `BarcodeHook`, `PantryAdd`). The barcode scanner's re-entrancy lock, the visibility of the camera modal, and the alerts whose buttons release the lock. The reusable `useBarcodeScanner` hook and the pantry "add item" screen each hold a copy of this logic.
- **Product mapping** (`ScanLock`, `BarcodeHook`, `PantryAdd`). An Open Food Facts product becomes a new item. The hook title-cases the category slug with `formatCategoryName`; the screen keeps the raw tag.
- **Duplicate-aware pantry insertion** (`PantryAdd`). A record is refused when the pantry already holds one with exactly the same `name` and `category`. Otherwise it is written without its `id`.
- **Recipe pipeline** (`Recipes`). Meals are collected per ingredient, de-duplicated by `idMeal`, and failed detail lookups are dropped. Then come the filter chips (all, healthy, quick, budget, uses expiring), the expiring-ingredient window and the title search.
- **Theme** (`ThemeContext`, `ThemeColors`, `Profile`). The saved mode, the `isDark` rule, the appearance listener that exists only in "system" mode, `setTheme`, palette selection, the profile greeting and the checked appearance option.

Module layout:

- `Seqs`: the shared `Option`, an order-preserving `Filter` and the subsequence relation.
- `Strings`: the JavaScript string operations the app uses, restricted to ASCII case mapping. These are `toLowerCase`, `toUpperCase`, `includes`, `replace` with a string pattern, `split`, `join` and `trim`.

Each screen or hook is one module, and each source file maps onto one module. State machines are pure functions from a state and an event to a new state. A `Run` over an event sequence carries the invariants.

## Model

| member | source | states |
|---|---|---|
| ScanLock.OpenScanner | app/hooks/useBarcodeScanner.ts:37-52 | The lock is always cleared. The modal is shown unless the permission request is denied; in that case visibility is unchanged although the lock is already cleared. |
| ScanLock.CloseScanner | app/hooks/useBarcodeScanner.ts:113-116 | Closing hides the modal and clears the lock, whatever the state. |
| ScanLock.Acknowledge | app/hooks/useBarcodeScanner.ts:89-95 | Pressing a button of a pending alert clears the lock. Without a pending alert, the lock stays as it was. |
| ScanLock.Gate | app/hooks/useBarcodeScanner.ts:55-58 | A scan is refused exactly when the lock is held. An accepted scan takes the lock and hides the modal. |
| ScanLock.ProductName | app/hooks/useBarcodeScanner.ts:73 | The name is never empty: it is `product_name` when that is non-empty, else "Unknown Product". |
| ScanLock.RawCategory | app/hooks/useBarcodeScanner.ts:69 | Missing or empty tags, and an empty first tag, give the fallback. Otherwise the first "en:" anywhere in the first tag is removed, and a tag that is exactly "en:" gives the fallback. A tag without "en:" is kept. The result is non-empty whenever the fallback is. |
| ScanLock.RawCategoryInnerPrefix | app/hooks/useBarcodeScanner.ts:69 | The tag "fr:en:x" gives "fr:x": the removal is not anchored at the start. |
| ScanLock.RawCategoryBarePrefix | app/hooks/useBarcodeScanner.ts:69 | The tag "en:" gives the fallback. |
| BarcodeHook.FormatCategoryName | app/hooks/useBarcodeScanner.ts:23-28 | The length is preserved and no '-' remains. Each hyphen becomes a space, the first character of each segment is upper-cased, and every other character is kept. |
| BarcodeHook.ScanFormatPointwise | app/hooks/useBarcodeScanner.ts:23-28 | The left-to-right reference formatter has the character-by-character description used above. |
| BarcodeHook.SegmentsAreScan | app/hooks/useBarcodeScanner.ts:24-27 | Split on "-", capitalise and join with " " equals the left-to-right reference formatter, for every input. |
| BarcodeHook.FormatIdempotent | app/hooks/useBarcodeScanner.ts:23-28 | Formatting an already formatted category changes nothing. |
| BarcodeHook.MapProduct | app/hooks/useBarcodeScanner.ts:66-79 | The found product becomes an item with its name (or "Unknown Product") and the formatted first tag (or "other"). The quantity is "1" and unit, price and expiration date are empty. |
| BarcodeHook.MappedItemShape | app/hooks/useBarcodeScanner.ts:69-79 | A mapped item always has a non-empty name and a non-empty category without '-'. A product without tags lands in "Other". |
| BarcodeHook.HandleBarCodeScanned | app/hooks/useBarcodeScanner.ts:54-111 | A locked scan makes no call and changes nothing. An accepted scan locks, hides the modal and makes one or two calls; exactly one when the `catch` is not reached. A found product is always handed to `onProductFound` first, even when that callback then throws. A missing product hands the scanned barcode to `onProductNotFound`, or to the not-found alert when there is no such callback. The last call is the error handler exactly when the lookup failed or a callback threw. That handler is `onError` when supplied, else the error alert. A pending alert is recorded exactly when one of the hook's own alerts is shown. |
| BarcodeHook.AcceptedScanRelease | app/hooks/useBarcodeScanner.ts:81-110 | After an accepted scan, OK releases the lock iff the hook showed its own alert or an older one was pending. The hook shows one exactly when a missing product has no `onProductNotFound`, or the `catch` is reached with no `onError`. |
| BarcodeHook.DeliveryThenError | app/hooks/useBarcodeScanner.ts:81-109 | When `onProductFound` throws, the caller has received the mapped item and then sees `onError` or the error alert. |
| BarcodeHook.ResetLock | app/hooks/useBarcodeScanner.ts:124 | The lock is cleared and nothing else changes. |
| BarcodeHook.OnlyUserActionsUnlock | app/hooks/useBarcodeScanner.ts:37-124 | Only open, close, `resetLock` or OK on a pending alert can turn a held lock into a free one. |
| BarcodeHook.RunShownUnlocked | app/hooks/useBarcodeScanner.ts:30-126 | Under any event sequence, the camera is never on screen while the lock is held. |
| BarcodeHook.MountedShownUnlocked | app/hooks/useBarcodeScanner.ts:33-35 | From the state on mount (hidden, unlocked, no alert), the same holds for every event sequence. |
| BarcodeHook.BurstAcceptsOne | app/hooks/useBarcodeScanner.ts:54-58 | Of a burst of scans with nothing in between, exactly the first is processed when the scanner is free, and none when it is locked. |
| PantryAdd.OrEmpty | app/pantry/add-item.tsx:42-45 | An absent optional field reads as "" and a present one as its value. |
| PantryAdd.LoadCatalog | app/pantry/add-item.tsx:33-48 | One item per catalog document, in order. It keeps the id, name and category, and every absent optional field becomes "". |
| PantryAdd.CatalogFilter | app/pantry/add-item.tsx:24-26 | An empty query gives nothing. Otherwise the result is an order-preserving subsequence holding exactly the entries whose lower-cased name contains the lower-cased query, with their multiplicities. |
| PantryAdd.AddItemToPantry | app/pantry/add-item.tsx:53-94 | A throwing read changes nothing. An exact name and category match is refused. Otherwise a successful write appends exactly the item without its id, and a failed write changes nothing. Each outcome is stated as an iff. |
| PantryAdd.AddKeepsUniqueKeys | app/pantry/add-item.tsx:53-76 | One call keeps at most one record per exact (name, category). After a duplicate or an add, the pair is present. |
| PantryAdd.AddAllKeepsUniqueKeys | app/pantry/add-item.tsx:53-94 | Any sequence of calls, each finishing before the next starts, keeps the pairs unique and only ever appends. |
| PantryAdd.CaseVariantIsNotDuplicate | app/pantry/add-item.tsx:56-60 | The comparison is exact: "milk"/"dairy" is written next to "Milk"/"Dairy". |
| PantryAdd.ScannedItem | app/pantry/add-item.tsx:127-135 | The screen's mapping gives the fresh id and the product name. The category is the raw first tag or "Other", with no title-casing. The quantity is "1" and the other fields are empty. |
| PantryAdd.ScannedCategoryIsRawTag | app/pantry/add-item.tsx:130 | A tag "en:dairy-products" is stored as "dairy-products", unformatted. |
| PantryAdd.HandleBarCodeScanned | app/pantry/add-item.tsx:114-162 | A locked scan changes nothing. Every accepted scan ends locked, hidden and waiting for an alert. The pantry is touched iff the product was found and the duplicate read succeeded, and then exactly as `addItemToPantry` says. A missing product ends with the not-found alert carrying its barcode. A failed lookup, or a found product whose duplicate read throws, ends with the error alert. |
| PantryAdd.AddFromCatalog | app/pantry/add-item.tsx:199-203 | A catalog row press leaves the lock and the modal alone and changes the pantry as `addItemToPantry` says. It shows an unlocking alert iff the duplicate read succeeded. |
| PantryAdd.AcceptedScanReleasedByAck | app/pantry/add-item.tsx:137-161 | Every accepted scan is released by one press on its alert: duplicate, added, write failure, failed read, not found or lookup error. |
| PantryAdd.RunInvariants | app/pantry/add-item.tsx:96-215 | Over any session whose events each finish before the next begins, the camera is never shown while locked, and the pantry keeps (name, category) unique. |
| PantryAdd.BurstAcceptsOne | app/pantry/add-item.tsx:114-118 | Of a burst of scans, at most the first reaches the pantry. |
| Recipes.CollectMeals | app/recipes.tsx:64-74 | A meal is collected iff some ingredient response listed it; a null `meals` contributes nothing. |
| Recipes.Dedupe | app/recipes.tsx:77-82 | The ids present are exactly the input ids, each once. Each id maps to an input meal with that id, and the last occurrence of an id wins. |
| Recipes.DedupeStep | app/recipes.tsx:78-81 | One step of the reduce keeps those three properties. |
| Recipes.ValidMeals | app/recipes.tsx:96 | The kept recipes are exactly the non-null detail results, and there are no more of them than lookups. |
| Recipes.LoadedRecipes | app/recipes.tsx:95-101 | A failed fetch round leaves no recipes; otherwise the valid details are kept. |
| Recipes.Tags | app/recipes.tsx:135-137 | Absent or empty `strTags` gives no tags. Otherwise there is one tag per ','-separated part, each part trimmed, and no tag contains ','. |
| Recipes.Category | app/recipes.tsx:138 | An absent `strCategory` gives "". Otherwise the category has the same length and is lower-cased character by character, so it holds no upper-case letter. |
| Recipes.CategoryNeverInSets | app/recipes.tsx:26-31 | The lower-cased category is never one of the capitalised healthy or quick category names. |
| Recipes.LoadPantry | app/recipes.tsx:46-53 | Every named document appears, with an empty date made null. Every entry comes from a named document, with that document's name and date. There are no more entries than documents. |
| Recipes.CeilDiv | app/recipes.tsx:126 | The result is the integer ceiling of a / b. |
| Recipes.ToExpiring | app/recipes.tsx:122-128 | The name is lower-cased. The day count is the ceiling of the time left in days. |
| Recipes.GetExpiringIngredients | app/recipes.tsx:110-129 | Exactly the entries whose parsed date lies in [now, now + daysAhead days] are mapped, and each result comes from such an entry. Every day count lies between 0 and daysAhead. |
| Recipes.WindowBoundaries | app/recipes.tsx:116-121 | Both ends of the window are included, with 0 and daysAhead days left. A day later is excluded, and so is an unparsable date. |
| Recipes.UsableIsNonBlankTrim | app/recipes.tsx:161 | A slot is used exactly when it holds a string that does not trim to "". |
| Recipes.IngredientsFrom | app/recipes.tsx:158-164 | The ingredient list holds exactly the lower-cased non-blank strings among the 20 ingredient slots. |
| Recipes.MatchedExpiring | app/recipes.tsx:167-169 | The matched list is the order-preserving selection of the expiring entries that some ingredient mentions, with multiplicities. |
| Recipes.MatchesByKey | app/recipes.tsx:132-181 | Healthy holds iff some tag is a healthy tag, and quick likewise with quick tags. Budget holds iff the tags contain "budget" or the category contains "miscellaneous". Expiring holds iff some expiring entry is mentioned. Any other key keeps the recipe. |
| Recipes.FilterRecipes | app/recipes.tsx:132-181 | The result is an order-preserving subsequence holding exactly the recipes the chip accepts, each as many times as in the input. "all" and unknown keys give the list unchanged. |
| Recipes.Search | app/recipes.tsx:185-189 | An empty query gives the list itself. Otherwise the result is an order-preserving selection of the recipes whose lower-cased title contains the lower-cased query, each as many times as in the input. |
| Recipes.VisibleIsOrderedSelection | app/recipes.tsx:132-189 | The list on screen is an order-preserving subsequence of the recipes. It holds exactly those passing both the chip and the search, each as many times as in the input. |
| Recipes.ExpiringChipUsesWeek | app/recipes.tsx:154-174 | Under the "expiring" chip, with the 7-day window the chip asks for, a recipe is listed iff it is loaded, passes the search, and one of its ingredients mentions the lower-cased name of a pantry entry dated within the next 7 days. |
| ThemeColors.GetThemeColors | theme/colors.ts:25-27 | The dark palette is chosen exactly when `isDark`, the light one exactly otherwise. The primary colour is the brand green either way. |
| ThemeColors.PalettesDifferExceptPrimary | theme/colors.ts:1-21 | The two palettes differ in every field but `primary`, which they share. |
| ThemeContext.IsDarkFor | context/ThemeContext.tsx:28-33 | Dark iff the mode is "dark", or the mode is "system" and the device is dark. |
| ThemeContext.Mount | context/ThemeContext.tsx:16-19 | The provider starts light, not dark, loading, with no listener, and it holds the device scheme it was mounted with. |
| ThemeContext.ChangeMode | context/ThemeContext.tsx:44-71 | A changed mode first removes any listener and installs one only for "system", taking the device's scheme. An unchanged mode re-runs nothing. |
| ThemeContext.LoadedMode | context/ThemeContext.tsx:24-25 | The loaded mode is the saved string when it is non-empty, else "light"; it is never empty. |
| ThemeContext.FinishLoad | context/ThemeContext.tsx:21-42 | Loading always ends. A throwing read changes nothing else. A successful read sets the loaded mode and the `isDark` rule for it. |
| ThemeContext.SetTheme | context/ThemeContext.tsx:73-85 | The mode is set whether or not persisting succeeds. `isDark` follows the rule after a successful save. After a failed one, outside a switch into "system", it stays as it was. A switch into "system", saved or not, takes the device's scheme through the mode effect. |
| ThemeContext.SchemeChanged | context/ThemeContext.tsx:55-57 | A device scheme change moves `isDark` only while a listener is installed. |
| ThemeContext.Unmount | context/ThemeContext.tsx:63-70 | Unmounting leaves no listener. |
| ThemeContext.StepKeepsListenerInvariant | context/ThemeContext.tsx:44-71 | Every event keeps at most one listener, and one exactly while mounted in "system" mode. |
| ThemeContext.StepKeepsCoherent | context/ThemeContext.tsx:21-85 | Every event keeps `isDark` equal to the rule for the mode and the device, except a failed save that switches into a mode other than "system". A failed switch into "system" keeps it. |
| ThemeContext.FailedPersistDesyncs | context/ThemeContext.tsx:73-85 | A failed save of "dark" after loading "light" selects "dark" while the light palette stays in use. |
| ThemeContext.RunInvariants | context/ThemeContext.tsx:15-96 | Over any event sequence the listener invariant holds. If no save into a mode other than "system" fails, `isDark` follows the rule throughout. |
| ThemeContext.MountInvariants | context/ThemeContext.tsx:16-19 | The state after mount satisfies both invariants. |
| ThemeContext.Rendered | context/ThemeContext.tsx:87-95 | Nothing is rendered exactly while loading. Afterwards the children see the mode and `isDark`. |
| ThemeContext.UseTheme | context/ThemeContext.tsx:98-102 | It is an error exactly outside a provider; inside one, the provided value is returned. |
| Profile.EmailName | app/profile.tsx:24 | The result is the longest prefix of the address without '@': a prefix, '@'-free, followed by '@' or the end. |
| Profile.OrElse | app/profile.tsx:24 | A non-empty string is kept, and an absent or empty one gives the fallback. |
| Profile.DisplayName | app/profile.tsx:20-27 | With no user the shown name is unchanged; a signed-in user never gets an empty name. |
| Profile.DisplayNameChoice | app/profile.tsx:24 | The name is the display name if non-empty, else the email's non-empty local part, else "User". |
| Profile.LeadingAtFallsBack | app/profile.tsx:24 | An address starting with '@' has an empty local part, so the greeting is "User". |
| Profile.CheckedOptions | app/profile.tsx:79-129 | Exactly one option is checked, the current mode, when the mode is one of the three; otherwise none is. |
| Profile.TapChecksOption | app/profile.tsx:79-129 | Tapping an option checks exactly that option, whether or not saving succeeds. |
| Profile.UnknownSavedMode | context/ThemeContext.tsx:24-33 | A stored mode other than the three options is kept: no option is checked and the light palette is used. |

## Left out

- Firestore, `fetch` and JSON parsing are inputs. A store call is `Succeeds` or `Throws`, and a lookup is found, not found or failed. The catalog and pantry collections are sequences.
- AsyncStorage is a succeed-or-throw outcome. The device's colour scheme is part of the provider state, and its changes are events.
- The 500 ms `setTimeout` before each alert and the alert dialogs become one `awaitingAck` flag, released by `Acknowledge`. Stacked alerts from overlapping catalog presses are not distinguished. The camera-permission notice is not modelled beyond leaving the modal as it was.
- `Promise.all` over the detail lookups is reduced to its resulting list. A throw anywhere in a fetch round yields no recipes.
- Recipes.Dedupe: the order in which `Object.values` lists the de-duplicated meals is left open, so the result is a map keyed by `idMeal`.
- Recipes.GetExpiringIngredients: JavaScript `Date` parsing is an abstract parser from the rearranged "yyyy-mm-dd" string to a millisecond timestamp. The window end is `now + daysAhead * 86 400 000`, so the calendar-day `setDate` arithmetic, time zones and daylight-saving shifts are not modelled. One `now` is used for the whole filter pass.
- BarcodeHook.FormatCategoryName: case mapping is ASCII-only, so the length and idempotence results hold for the model's case mapping and not for full Unicode `toUpperCase`.
- PantryAdd.CatalogFilter, Recipes.Search, Recipes.Category, Recipes.ToExpiring and Recipes.IngredientsFrom: `toLowerCase` is modelled by the same ASCII-only `ToLower`. Non-ASCII letters are left as they are, so the query "éclair" does not match the name "Éclair" in the model, although it does in JavaScript.
- Recipes.MatchedExpiring: the list is returned instead of being stored on the recipe object.
- The early return of the recipe fetch when the pantry is empty and the `loading` spinner flag are not modelled.
- A lookup reply with status 1 but no `product` object is not modelled; the hook and the screen would throw into their error paths.
- `Date.now().toString()` for the scanned item's id is an input of `PantryAdd.HandleBarCodeScanned`.
- The UI-only files, the style sheets, the navigation calls and the admin import script are not part of this model. Nor are the shopping-list screens and their trimmed, case-insensitive duplicate check.
- PantryAdd.AddItemToPantry: duplicates are found by exact, case-sensitive equality on `name` and `category`, as the Firestore `==` query does. The shopping-list screen (app/list/[id]/add-list-item.tsx:106-107) trims and lower-cases its key; the pantry screen does not. `PantryAdd.CaseVariantIsNotDuplicate` shows the difference.
- PantryAdd.RunInvariants: each `addItemToPantry` call and each scan is one atomic step that completes before the next event. The source awaits between the duplicate read (app/pantry/add-item.tsx:61) and the write (:76). Two overlapping catalog presses (:200), or a press during a scan's lookup (:121), can both read a pantry without the item and both write it. The unique-key result therefore holds only for calls that do not overlap.
- BarcodeHook.HandleBarCodeScanned: a callback that throws is a synchronous throw. A promise returned by `onProductNotFound` is not awaited, so its rejection never reaches the `catch`; this is not modelled. A throw from `onError` inside the `catch` rejects the handler's promise after the call is made, with no further state change.

=== FILE: barcodehook.dfy ===
/** The reusable `useBarcodeScanner` hook: slug formatting of categories, the
    mapping from an Open Food Facts product to a new item, and the scan-lock
    transitions of `openScanner`, `handleBarCodeScanned`, `closeScanner` and
    `resetLock`. The callbacks passed in by the caller are reduced to whether
    they are present and, for `onProductFound`, whether it throws. */
module BarcodeHook {
  import opened Seqs
  import opened Strings
  import opened ScanLock

  /** `word.charAt(0).toUpperCase() + word.slice(1)`. */
  function Capitalize(word: string): string
  {
    if |word| == 0 then "" else [ToUpperChar(word[0])] + word[1..]
  }

  function CapitalizeAll(words: seq<string>): (r: seq<string>)
    ensures |r| == |words|
    ensures forall i :: 0 <= i < |words| ==> r[i] == Capitalize(words[i])
  {
    seq(|words|, i requires 0 <= i < |words| => Capitalize(words[i]))
  }

  /** Character `i` of a formatted slug: a hyphen becomes a space, the first
      character of each hyphen-separated segment is upper-cased, every other
      character is kept. `atStart` says whether index 0 begins a segment. */
  function FormattedCharFrom(s: string, i: nat, atStart: bool): char
    requires i < |s|
  {
    if s[i] == '-' then ' '
    else if (i == 0 && atStart) || (i > 0 && s[i - 1] == '-') then ToUpperChar(s[i])
    else s[i]
  }

  function FormattedChar(s: string, i: nat): char
    requires i < |s|
  {
    FormattedCharFrom(s, i, true)
  }

  /** `formatCategoryName`: split on "-", capitalise each segment, join with " ". */
  function FormatCategoryName(category: string): (r: string)
    ensures |r| == |category|
    ensures forall i :: 0 <= i < |r| ==> r[i] == FormattedChar(category, i)
    ensures '-' !in r
  {
    var parts := Split(category, '-');
    assert CapitalizeAll(parts) == [Capitalize(parts[0])] + CapitalizeAll(parts[1..]);
    SegmentsAreScan(category, true);
    ScanFormatPointwise(category, true);
    Join(CapitalizeAll(parts), " ")
  }

  /** A left-to-right reading of the slug that remembers whether the next
      character starts a segment; the reference the split/map/join is proved
      against. */
  function ScanFormat(s: string, atStart: bool): string
    decreases |s|
  {
    if |s| == 0 then ""
    else if s[0] == '-' then " " + ScanFormat(s[1..], true)
    else [if atStart then ToUpperChar(s[0]) else s[0]] + ScanFormat(s[1..], false)
  }

  lemma {:induction false} ScanFormatPointwise(s: string, atStart: bool)
    ensures |ScanFormat(s, atStart)| == |s|
    ensures forall i :: 0 <= i < |s| ==> ScanFormat(s, atStart)[i] == FormattedCharFrom(s, i, atStart)
    decreases |s|
  {
    if |s| > 0 {
      var t := s[1..];
      var tail := ScanFormat(t, s[0] == '-');
      ScanFormatPointwise(t, s[0] == '-');
      assert ScanFormat(s, atStart) == [ScanFormat(s, atStart)[0]] + tail;
      forall i | 0 < i < |s|
        ensures ScanFormat(s, atStart)[i] == FormattedCharFrom(s, i, atStart)
      {
        assert ScanFormat(s, atStart)[i] == tail[i - 1] == FormattedCharFrom(t, i - 1, s[0] == '-');
        assert t[i - 1] == s[i];
        if i > 1 {
          assert t[i - 2] == s[i - 1];
        }
      }
    }
  }

  /** The segments of a split, joined back with the first one capitalised only
      when `capFirst` holds. */
  function JoinSegments(parts: seq<string>, capFirst: bool): string
    requires |parts| >= 1
  {
    Join([if capFirst then Capitalize(parts[0]) else parts[0]] + CapitalizeAll(parts[1..]), " ")
  }

  lemma {:induction false} SegmentsAreScan(s: string, atStart: bool)
    ensures JoinSegments(Split(s, '-'), atStart) == ScanFormat(s, atStart)
    decreases |s|
  {
    if |s| > 0 {
      SegmentsAreScan(s[1..], s[0] == '-');
      if s[0] == '-' {
        HyphenStep(s, atStart);
      } else {
        LetterStep(s, atStart);
      }
    }
  }

  /** A leading hyphen contributes an empty segment and one space, and the next
      segment starts capitalised. */
  lemma HyphenStep(s: string, atStart: bool)
    requires |s| > 0 && s[0] == '-'
    requires JoinSegments(Split(s[1..], '-'), true) == ScanFormat(s[1..], true)
    ensures JoinSegments(Split(s, '-'), atStart) == ScanFormat(s, atStart)
  {
    var rest := Split(s[1..], '-');
    var caps := CapitalizeAll(rest);
    assert Split(s, '-') == [""] + rest;
    assert ([""] + rest)[1..] == rest;
    assert caps == [Capitalize(rest[0])] + CapitalizeAll(rest[1..]);
    JoinCons("", caps, " ");
    assert JoinSegments(Split(s, '-'), atStart) == Join([""] + caps, " ");
    assert Join([""] + caps, " ") == " " + JoinSegments(rest, true);
  }

  /** A leading non-hyphen character extends the first segment, upper-cased
      exactly when that segment is capitalised. */
  lemma LetterStep(s: string, atStart: bool)
    requires |s| > 0 && s[0] != '-'
    requires JoinSegments(Split(s[1..], '-'), false) == ScanFormat(s[1..], false)
    ensures JoinSegments(Split(s, '-'), atStart) == ScanFormat(s, atStart)
  {
    var c := s[0];
    var rest := Split(s[1..], '-');
    var tail := CapitalizeAll(rest[1..]);
    var first := if atStart then ToUpperChar(c) else c;
    var head := [c] + rest[0];
    assert Split(s, '-') == [head] + rest[1..];
    assert JoinSegments(Split(s, '-'), atStart) == Join([[first] + rest[0]] + tail, " ") by {
      assert ([head] + rest[1..])[1..] == rest[1..];
      assert head[1..] == rest[0];
    }
    JoinExtendsHead(first, rest[0], tail, " ");
  }

  /** Formatting an already formatted name changes nothing. */
  lemma FormatIdempotent(category: string)
    ensures FormatCategoryName(FormatCategoryName(category)) == FormatCategoryName(category)
  {
  }

  /** The item handed to `onProductFound`. */
  datatype NewItem = NewItem(name: string, category: string, quantity: string,
                             unit: string, price: string, expirationDate: string)

  /** The mapping on the found path: the product name or "Unknown Product", the
      first category tag without "en:" (or "other") in title case, quantity
      "1" and the remaining fields empty. */
  function MapProduct(p: Product): (item: NewItem)
    ensures item.name == ProductName(p)
    ensures item.category == FormatCategoryName(RawCategory(p, "other"))
    ensures item.quantity == "1" && item.unit == "" && item.price == "" && item.expirationDate == ""
  {
    NewItem(ProductName(p), FormatCategoryName(RawCategory(p, "other")), "1", "", "", "")
  }

  /** A mapped item always has a name and a category, and the category is a
      title-cased slug with no hyphen left; a product without tags lands in
      "Other". */
  lemma MappedItemShape(p: Product)
    ensures MapProduct(p).name != ""
    ensures MapProduct(p).category != "" && '-' !in MapProduct(p).category
    ensures p.categoriesTags.None? || p.categoriesTags.value == [] ==> MapProduct(p).category == "Other"
  {
  }

  /** Which optional callbacks the caller supplied. */
  datatype Options = Options(onProductNotFound: bool, onError: bool)

  /** One observable call made while handling a scan: the item handed to
      `onProductFound`, the barcode handed to `onProductNotFound`, the `onError`
      callback, or (after the delay) an alert whose OK clears the lock. */
  datatype Call =
    | Deliver(item: NewItem)
    | NotFoundCallback(barcode: string)
    | ErrorCallback
    | NotFoundAlert(barcode: string)
    | ErrorAlert

  /** One scan as delivered by the camera: the code, what the lookup returned,
      and whether the caller's callback run inside the `try` (`onProductFound`
      for a found product, `onProductNotFound` for a missing one) throws. */
  datatype ScanInput = ScanInput(barcode: string, resolution: Resolution, callbackThrows: bool)

  /** The scanner after the call and the calls made, in order. */
  datatype Step = Step(scanner: Scanner, calls: seq<Call>)

  predicate IsAlert(c: Call) { c.NotFoundAlert? || c.ErrorAlert? }

  /** Some call in the list is an alert. */
  predicate ShowsAlert(calls: seq<Call>)
  {
    exists i :: 0 <= i < |calls| && IsAlert(calls[i])
  }

  /** The `try` block ends in the `catch`: the lookup failed, or a callback the
      block runs threw. */
  predicate ReachesCatch(opts: Options, input: ScanInput)
  {
    || input.resolution.Failed?
    || (input.resolution.Found? && input.callbackThrows)
    || (input.resolution.NotFound? && opts.onProductNotFound && input.callbackThrows)
  }

  /** `handleBarCodeScanned`. */
  function HandleBarCodeScanned(s: Scanner, opts: Options, input: ScanInput): (st: Step)
    ensures s.locked ==> st == Step(s, [])
    ensures !s.locked ==> st.scanner.locked && !st.scanner.visible && 1 <= |st.calls| <= 2
    ensures st.scanner.awaitingAck <==>
      s.awaitingAck || (!s.locked && ((input.resolution.NotFound? && !opts.onProductNotFound) || (ReachesCatch(opts, input) && !opts.onError)))
    ensures !s.locked && input.resolution.Found? ==> st.calls[0] == Deliver(MapProduct(input.resolution.product))
    ensures !s.locked && input.resolution.NotFound? ==>
      st.calls[0] == if opts.onProductNotFound then NotFoundCallback(input.barcode) else NotFoundAlert(input.barcode)
    ensures !s.locked && input.resolution.Failed? ==> |st.calls| == 1
    ensures !s.locked && !ReachesCatch(opts, input) ==> |st.calls| == 1
    ensures !s.locked ==>
      var last := st.calls[|st.calls| - 1];
      && (last.ErrorCallback? || last.ErrorAlert? <==> ReachesCatch(opts, input))
      && (last.ErrorCallback? ==> opts.onError)
      && (last.ErrorAlert? ==> !opts.onError)
  {
    match Gate(s)
    case None => Step(s, [])
    case Some(t) =>
      match input.resolution
      case Found(p) =>
        if input.callbackThrows then Step(CatchScanner(t, opts), [Deliver(MapProduct(p)), CatchCall(opts)])
        else Step(t, [Deliver(MapProduct(p))])
      case NotFound =>
        if !opts.onProductNotFound then Step(t.(awaitingAck := true), [NotFoundAlert(input.barcode)])
        else if input.callbackThrows then Step(CatchScanner(t, opts), [NotFoundCallback(input.barcode), CatchCall(opts)])
        else Step(t, [NotFoundCallback(input.barcode)])
      case Failed => Step(CatchScanner(t, opts), [CatchCall(opts)])
  }

  /** What the `catch` block calls: `onError` when supplied, else the alert. */
  function CatchCall(opts: Options): (c: Call)
    ensures c.ErrorCallback? <==> opts.onError
    ensures c.ErrorCallback? || c.ErrorAlert?
  {
    if opts.onError then ErrorCallback else ErrorAlert
  }

  /** The scanner after the `catch` block: only the alert leaves an OK to press. */
  function CatchScanner(t: Scanner, opts: Options): (u: Scanner)
    ensures u.locked == t.locked && u.visible == t.visible
    ensures u.awaitingAck <==> t.awaitingAck || !opts.onError
  {
    if opts.onError then t else t.(awaitingAck := true)
  }

  /** After an accepted scan, pressing OK on the alert frees the scanner exactly
      when the hook showed its own alert (or an older alert was still pending).
      It shows one exactly when the lookup misses with no `onProductNotFound`,
      or the `catch` is reached with no `onError`; the delivered item and the
      caller's own callbacks leave the lock held. */
  lemma AcceptedScanRelease(s: Scanner, opts: Options, input: ScanInput)
    requires !s.locked
    ensures var st := HandleBarCodeScanned(s, opts, input);
      !Acknowledge(st.scanner).locked <==> s.awaitingAck || ShowsAlert(st.calls)
    ensures var st := HandleBarCodeScanned(s, opts, input);
      ShowsAlert(st.calls) <==>
        || (input.resolution.NotFound? && !opts.onProductNotFound)
        || (ReachesCatch(opts, input) && !opts.onError)
  {
    var st := HandleBarCodeScanned(s, opts, input);
    if ShowsAlert(st.calls) {
      var i :| 0 <= i < |st.calls| && IsAlert(st.calls[i]);
    }
  }

  /** A throwing `onProductFound` has already received the item when the error
      is handled: the caller sees the item, then the error. */
  lemma DeliveryThenError(s: Scanner, opts: Options, barcode: string, p: Product)
    requires !s.locked
    ensures HandleBarCodeScanned(s, opts, ScanInput(barcode, Found(p), true)).calls
            == [Deliver(MapProduct(p)), if opts.onError then ErrorCallback else ErrorAlert]
  {
  }

  /** `resetLock`. */
  function ResetLock(s: Scanner): (t: Scanner)
    ensures !t.locked && t.visible == s.visible && t.awaitingAck == s.awaitingAck
  {
    s.(locked := false)
  }

  /** Everything that can happen to a hook instance. */
  datatype Event = Open(permission: Permission) | Scan(input: ScanInput) | Close | Reset | Ack

  function Next(s: Scanner, opts: Options, e: Event): Scanner
  {
    match e
    case Open(permission) => OpenScanner(s, permission)
    case Scan(input) => HandleBarCodeScanned(s, opts, input).scanner
    case Close => CloseScanner(s)
    case Reset => ResetLock(s)
    case Ack => Acknowledge(s)
  }

  /** The lock is cleared only by the user-facing operations: opening or
      closing the scanner, `resetLock`, or OK on a pending alert. */
  lemma OnlyUserActionsUnlock(s: Scanner, opts: Options, e: Event)
    requires s.locked && !Next(s, opts, e).locked
    ensures e.Open? || e.Close? || e.Reset? || (e.Ack? && s.awaitingAck)
  {
  }

  function Run(s: Scanner, opts: Options, events: seq<Event>): Scanner
    decreases |events|
  {
    if |events| == 0 then s else Run(Next(s, opts, events[0]), opts, events[1..])
  }

  /** Whatever happens, the camera is never on screen while the lock is held. */
  lemma {:induction false} RunShownUnlocked(s: Scanner, opts: Options, events: seq<Event>)
    requires ShownUnlocked(s)
    ensures ShownUnlocked(Run(s, opts, events))
    decreases |events|
  {
    if |events| > 0 {
      RunShownUnlocked(Next(s, opts, events[0]), opts, events[1..]);
    }
  }

  /** From the state a freshly mounted hook starts in, the camera is never on
      screen while the lock is held. */
  lemma {:induction false} MountedShownUnlocked(opts: Options, events: seq<Event>)
    ensures ShownUnlocked(Run(Initial, opts, events))
  {
    RunShownUnlocked(Initial, opts, events);
  }

  /** How many of a burst of scans, delivered with nothing in between, the
      hook processes. */
  function Accepted(s: Scanner, opts: Options, scans: seq<ScanInput>): nat
    decreases |scans|
  {
    if |scans| == 0 then 0
    else
      var st := HandleBarCodeScanned(s, opts, scans[0]);
      (if st.calls == [] then 0 else 1) + Accepted(st.scanner, opts, scans[1..])
  }

  /** Of any burst of scans, exactly the first is processed when the scanner is
      free, and none when it is locked. */
  lemma {:induction false} BurstAcceptsOne(s: Scanner, opts: Options, scans: seq<ScanInput>)
    ensures Accepted(s, opts, scans) == if s.locked || |scans| == 0 then 0 else 1
    decreases |scans|
  {
    if |scans| > 0 {
      BurstAcceptsOne(HandleBarCodeScanned(s, opts, scans[0]).scanner, opts, scans[1..]);
    }
  }
}

=== FILE: pantryadd.dfy ===
/** The pantry "add item" screen: the catalog search under the text box, the
    duplicate-aware `addItemToPantry`, and the screen's own copy of the scan
    lock. The Firestore `pantry` collection is an abstract sequence of records;
    each store call is reduced to whether it succeeds or throws. */
module PantryAdd {
  import opened Seqs
  import opened Strings
  import opened ScanLock

  /** A catalog entry as the screen holds it (the `Item` type of the screen). */
  datatype Item = Item(id: string, name: string, category: string, quantity: string,
                       unit: string, price: string, expirationDate: string)

  /** A document of the `items` catalog collection; the optional fields may be
      absent. */
  datatype CatalogDoc = CatalogDoc(id: string, name: string, category: string, quantity: Option<string>,
                                   unit: Option<string>, price: Option<string>, expirationDate: Option<string>)

  /** `field || ""` on an optional string field. */
  function OrEmpty(field: Option<string>): (r: string)
    ensures field.Some? ==> r == field.value
    ensures field.None? ==> r == ""
  {
    if field.Some? then field.value else ""
  }

  /** The catalog load: one item per document in snapshot order, the document
      id as the item id and every absent optional field as "". */
  function LoadCatalog(docs: seq<CatalogDoc>): (items: seq<Item>)
    ensures |items| == |docs|
    ensures forall i :: 0 <= i < |docs| ==>
      items[i].id == docs[i].id && items[i].name == docs[i].name && items[i].category == docs[i].category
    ensures forall i :: 0 <= i < |docs| ==>
      items[i].quantity == OrEmpty(docs[i].quantity) && items[i].unit == OrEmpty(docs[i].unit)
      && items[i].price == OrEmpty(docs[i].price) && items[i].expirationDate == OrEmpty(docs[i].expirationDate)
  {
    seq(|docs|, i requires 0 <= i < |docs| =>
      Item(docs[i].id, docs[i].name, docs[i].category, OrEmpty(docs[i].quantity), OrEmpty(docs[i].unit),
           OrEmpty(docs[i].price), OrEmpty(docs[i].expirationDate)))
  }

  /** A document of the `pantry` collection: an item without its `id`. */
  datatype PantryRecord = PantryRecord(name: string, category: string, quantity: string,
                                       unit: string, price: string, expirationDate: string)

  /** `const { id, ...pantryItem } = item`. */
  function WithoutId(item: Item): PantryRecord
  {
    PantryRecord(item.name, item.category, item.quantity, item.unit, item.price, item.expirationDate)
  }

  /** The catalog entry's lower-cased name contains the lower-cased query. */
  predicate NameMatches(query: string, item: Item)
  {
    Contains(ToLower(item.name), ToLower(query))
  }

  /** `filtered`: nothing for an empty query, otherwise the catalog entries
      whose name contains the query case-insensitively, in catalog order. */
  function CatalogFilter(all: seq<Item>, query: string): (r: seq<Item>)
    ensures query == "" ==> r == []
    ensures query != "" ==> forall x :: x in r <==> x in all && NameMatches(query, x)
    ensures query != "" ==> forall x :: multiset(r)[x] == if NameMatches(query, x) then multiset(all)[x] else 0
    ensures IsSubsequence(r, all)
  {
    if query == "" then
      EmptySubsequence(all);
      []
    else Filter(x => NameMatches(query, x), all)
  }

  /** The Firestore query `where("name", "==", name), where("category", "==",
      category)` is non-empty: exact, case-sensitive equality on both fields. */
  predicate InPantry(pantry: seq<PantryRecord>, name: string, category: string)
  {
    exists k :: 0 <= k < |pantry| && pantry[k].name == name && pantry[k].category == category
  }

  /** A store call either completes or throws. */
  datatype Store = Succeeds | Throws

  /** How `addItemToPantry` ends: the "Already in pantry", "Success" or "Error"
      alert, or a rejected promise when the duplicate-check read throws (that
      read is outside the `try`). */
  datatype AddOutcome = AlreadyInPantry | Added | WriteFailed | ReadThrew

  datatype AddResult = AddResult(outcome: AddOutcome, pantry: seq<PantryRecord>)

  /** `addItemToPantry`. */
  function AddItemToPantry(pantry: seq<PantryRecord>, item: Item, read: Store, write: Store): (r: AddResult)
    ensures r.outcome == ReadThrew <==> read.Throws?
    ensures r.outcome == AlreadyInPantry <==> read.Succeeds? && InPantry(pantry, item.name, item.category)
    ensures r.outcome == Added <==>
      read.Succeeds? && write.Succeeds? && !InPantry(pantry, item.name, item.category)
    ensures r.outcome == Added ==> r.pantry == pantry + [WithoutId(item)]
    ensures r.outcome != Added ==> r.pantry == pantry
  {
    if read.Throws? then AddResult(ReadThrew, pantry)
    else if InPantry(pantry, item.name, item.category) then AddResult(AlreadyInPantry, pantry)
    else if write.Throws? then AddResult(WriteFailed, pantry)
    else AddResult(Added, pantry + [WithoutId(item)])
  }

  /** At most one pantry record per exact (name, category) pair. */
  predicate UniqueKeys(pantry: seq<PantryRecord>)
  {
    forall i, j :: 0 <= i < j < |pantry| ==>
      !(pantry[i].name == pantry[j].name && pantry[i].category == pantry[j].category)
  }

  /** One insertion keeps the pair unique, and after a call that reached the
      store the pair is present exactly once. */
  lemma AddKeepsUniqueKeys(pantry: seq<PantryRecord>, item: Item, read: Store, write: Store)
    requires UniqueKeys(pantry)
    ensures UniqueKeys(AddItemToPantry(pantry, item, read, write).pantry)
    ensures var r := AddItemToPantry(pantry, item, read, write);
      r.outcome == Added || r.outcome == AlreadyInPantry ==> InPantry(r.pantry, item.name, item.category)
  {
    var r := AddItemToPantry(pantry, item, read, write);
    if r.outcome == Added {
      forall i, j | 0 <= i < j < |r.pantry|
        ensures !(r.pantry[i].name == r.pantry[j].name && r.pantry[i].category == r.pantry[j].category)
      {
        if j == |pantry| {
          assert r.pantry[j] == WithoutId(item);
          assert r.pantry[i] == pantry[i];
        }
      }
      assert r.pantry[|pantry|] == WithoutId(item);
    }
  }

  /** One press of a catalog row or one scanned product: the item and what the
      two store calls do. */
  datatype AddRequest = AddRequest(item: Item, read: Store, write: Store)

  function AddAll(pantry: seq<PantryRecord>, requests: seq<AddRequest>): seq<PantryRecord>
    decreases |requests|
  {
    if |requests| == 0 then pantry
    else
      var q := requests[0];
      AddAll(AddItemToPantry(pantry, q.item, q.read, q.write).pantry, requests[1..])
  }

  /** Under any sequence of calls the pantry never holds two records with the
      same exact (name, category), and it only grows. */
  lemma {:induction false} AddAllKeepsUniqueKeys(pantry: seq<PantryRecord>, requests: seq<AddRequest>)
    requires UniqueKeys(pantry)
    ensures UniqueKeys(AddAll(pantry, requests))
    ensures pantry <= AddAll(pantry, requests)
    decreases |requests|
  {
    if |requests| > 0 {
      var q := requests[0];
      AddKeepsUniqueKeys(pantry, q.item, q.read, q.write);
      AddAllKeepsUniqueKeys(AddItemToPantry(pantry, q.item, q.read, q.write).pantry, requests[1..]);
    }
  }

  /** The comparison is exact: "milk"/"dairy" is not a duplicate of
      "Milk"/"Dairy" and is written as a second record. */
  lemma CaseVariantIsNotDuplicate()
    ensures var pantry := [PantryRecord("Milk", "Dairy", "1", "", "", "")];
      var r := AddItemToPantry(pantry, Item("1", "milk", "dairy", "1", "", "", ""), Succeeds, Succeeds);
      r.outcome == Added && |r.pantry| == 2
  {
  }

  /** The screen's mapping of a scanned product: a fresh id, the product name
      or "Unknown Product", the first category tag without "en:" (or "Other")
      exactly as it comes, quantity "1" and the remaining fields empty. */
  function ScannedItem(p: Product, id: string): (item: Item)
    ensures item.id == id && item.name == ProductName(p)
    ensures item.category == RawCategory(p, "Other")
    ensures item.quantity == "1" && item.unit == "" && item.price == "" && item.expirationDate == ""
  {
    Item(id, ProductName(p), RawCategory(p, "Other"), "1", "", "", "")
  }

  /** Unlike the hook, the screen does not title-case the tag: "en:dairy-products"
      is stored as "dairy-products". */
  lemma ScannedCategoryIsRawTag(p: Product, id: string, rest: string)
    requires p.categoriesTags == Some(["en:" + rest]) && rest != ""
    ensures ScannedItem(p, id).category == rest
  {
  }

  /** What one screen action did besides the scanner state. */
  datatype ScreenEffect = Ignored | PantryAttempt(outcome: AddOutcome) | NotFoundAlert(barcode: string) | ErrorAlert

  datatype ScreenStep = ScreenStep(scanner: Scanner, pantry: seq<PantryRecord>, effect: ScreenEffect)

  /** One scan delivered to the screen: the code, the lookup result, the id
      `Date.now().toString()` would give, and what the two store calls do. */
  datatype ScanInput = ScanInput(barcode: string, resolution: Resolution, id: string, read: Store, write: Store)

  /** The screen's `handleBarCodeScanned`. Every accepted scan ends with an
      alert whose buttons clear the lock; a throwing duplicate-check read is
      caught by this handler's `catch` and shown as the error alert. */
  function HandleBarCodeScanned(s: Scanner, pantry: seq<PantryRecord>, input: ScanInput): (st: ScreenStep)
    ensures s.locked ==> st == ScreenStep(s, pantry, Ignored)
    ensures !s.locked ==> st.scanner == Scanner(true, false, true)
    ensures st.effect.PantryAttempt? <==> !s.locked && input.resolution.Found? && input.read.Succeeds?
    ensures st.effect.PantryAttempt? ==>
      var r := AddItemToPantry(pantry, ScannedItem(input.resolution.product, input.id), input.read, input.write);
      st.effect.outcome == r.outcome && st.pantry == r.pantry
    ensures !st.effect.PantryAttempt? ==> st.pantry == pantry
    ensures !s.locked && input.resolution.NotFound? ==> st.effect == NotFoundAlert(input.barcode)
    ensures !s.locked && (input.resolution.Failed? || (input.resolution.Found? && input.read.Throws?)) ==>
      st.effect == ErrorAlert
  {
    match Gate(s)
    case None => ScreenStep(s, pantry, Ignored)
    case Some(t) =>
      var alerted := t.(awaitingAck := true);
      match input.resolution
      case Found(p) =>
        var r := AddItemToPantry(pantry, ScannedItem(p, input.id), input.read, input.write);
        if r.outcome == ReadThrew then ScreenStep(alerted, pantry, ErrorAlert)
        else ScreenStep(alerted, r.pantry, PantryAttempt(r.outcome))
      case NotFound => ScreenStep(alerted, pantry, NotFoundAlert(input.barcode))
      case Failed => ScreenStep(alerted, pantry, ErrorAlert)
  }

  /** A press on a catalog row calls `addItemToPantry` directly: each of its
      alerts clears the lock on OK, and a throwing read is an unhandled
      rejection that shows nothing. */
  function AddFromCatalog(s: Scanner, pantry: seq<PantryRecord>, item: Item, read: Store, write: Store): (st: ScreenStep)
    ensures st.scanner.locked == s.locked && st.scanner.visible == s.visible
    ensures st.scanner.awaitingAck <==> s.awaitingAck || read.Succeeds?
    ensures st.pantry == AddItemToPantry(pantry, item, read, write).pantry
  {
    var r := AddItemToPantry(pantry, item, read, write);
    ScreenStep(if r.outcome == ReadThrew then s else s.(awaitingAck := true), r.pantry, PantryAttempt(r.outcome))
  }

  /** Everything that can happen on the screen. */
  datatype Event =
    | Open(permission: Permission)
    | Scan(input: ScanInput)
    | Pick(item: Item, read: Store, write: Store)
    | Close
    | Ack

  function Next(s: Scanner, pantry: seq<PantryRecord>, e: Event): ScreenStep
  {
    match e
    case Open(permission) => ScreenStep(OpenScanner(s, permission), pantry, Ignored)
    case Scan(input) => HandleBarCodeScanned(s, pantry, input)
    case Pick(item, read, write) => AddFromCatalog(s, pantry, item, read, write)
    case Close => ScreenStep(CloseScanner(s), pantry, Ignored)
    case Ack => ScreenStep(Acknowledge(s), pantry, Ignored)
  }

  /** Every accepted scan, whatever its outcome (duplicate, added, write
      failure, failed read, not found, lookup error), leaves the scanner
      reusable after one press on the alert. */
  lemma AcceptedScanReleasedByAck(s: Scanner, pantry: seq<PantryRecord>, input: ScanInput)
    requires !s.locked
    ensures HandleBarCodeScanned(s, pantry, input).scanner.locked
    ensures !Acknowledge(HandleBarCodeScanned(s, pantry, input).scanner).locked
  {
  }

  function Run(s: Scanner, pantry: seq<PantryRecord>, events: seq<Event>): ScreenStep
    decreases |events|
  {
    if |events| == 0 then ScreenStep(s, pantry, Ignored)
    else
      var st := Next(s, pantry, events[0]);
      Run(st.scanner, st.pantry, events[1..])
  }

  /** Over any session on the screen the camera is never shown while locked
      and the pantry keeps at most one record per exact (name, category). */
  lemma {:induction false} RunInvariants(s: Scanner, pantry: seq<PantryRecord>, events: seq<Event>)
    requires ShownUnlocked(s) && UniqueKeys(pantry)
    ensures ShownUnlocked(Run(s, pantry, events).scanner)
    ensures UniqueKeys(Run(s, pantry, events).pantry)
    decreases |events|
  {
    if |events| > 0 {
      var e := events[0];
      match e {
        case Scan(input) =>
          if !s.locked && input.resolution.Found? {
            AddKeepsUniqueKeys(pantry, ScannedItem(input.resolution.product, input.id), input.read, input.write);
          }
        case Pick(item, read, write) => AddKeepsUniqueKeys(pantry, item, read, write);
        case _ =>
      }
      var st := Next(s, pantry, e);
      RunInvariants(st.scanner, st.pantry, events[1..]);
    }
  }

  /** Of a burst of scans with nothing in between, at most the first reaches
      the pantry. */
  function Accepted(s: Scanner, pantry: seq<PantryRecord>, scans: seq<ScanInput>): nat
    decreases |scans|
  {
    if |scans| == 0 then 0
    else
      var st := HandleBarCodeScanned(s, pantry, scans[0]);
      (if st.effect == Ignored then 0 else 1) + Accepted(st.scanner, st.pantry, scans[1..])
  }

  lemma {:induction false} BurstAcceptsOne(s: Scanner, pantry: seq<PantryRecord>, scans: seq<ScanInput>)
    ensures Accepted(s, pantry, scans) == if s.locked || |scans| == 0 then 0 else 1
    decreases |scans|
  {
    if |scans| > 0 {
      var st := HandleBarCodeScanned(s, pantry, scans[0]);
      BurstAcceptsOne(st.scanner, st.pantry, scans[1..]);
    }
  }
}

=== FILE: profile.dfy ===
/** The profile screen's logic: the greeting name derived from the signed-in
    user, and which of the three appearance options shows its check mark. */
module Profile {
  import opened Seqs
  import opened Strings
  import ThemeContext

  /** The fields of the signed-in user the screen reads; either may be null. */
  datatype User = User(displayName: Option<string>, email: Option<string>)

  /** `email.split("@")[0]`: the longest prefix of the address without '@'. */
  function EmailName(email: string): (r: string)
    ensures r <= email && '@' !in r
    ensures r == email || email[|r|] == '@'
  {
    SplitHead(email, '@');
    Split(email, '@')[0]
  }

  /** A JavaScript `||` on an optional string: the value when it is a
      non-empty string, otherwise the fallback. */
  function OrElse(s: Option<string>, fallback: string): (r: string)
    ensures s.Some? && s.value != "" ==> r == s.value
    ensures s.None? || s.value == "" ==> r == fallback
  {
    if s.Some? && s.value != "" then s.value else fallback
  }

  /** The focus effect: with no signed-in user the name shown stays as it was;
      otherwise the display name, else the part of the email before '@', else
      "User". */
  function DisplayName(user: Option<User>, current: string): (name: string)
    ensures user.None? ==> name == current
    ensures user.Some? ==> name != ""
  {
    match user
    case None => current
    case Some(u) =>
      var fromEmail := if u.email.Some? then Some(EmailName(u.email.value)) else None;
      OrElse(u.displayName, OrElse(fromEmail, "User"))
  }

  /** For a signed-in user the greeting is the display name when there is one;
      otherwise the email's local part when it is non-empty; otherwise "User".
      An email's local part never holds '@'. */
  lemma DisplayNameChoice(u: User, current: string)
    ensures var name := DisplayName(Some(u), current);
      if u.displayName.Some? && u.displayName.value != "" then name == u.displayName.value
      else if u.email.Some? && EmailName(u.email.value) != "" then
        name == EmailName(u.email.value) && name <= u.email.value && '@' !in name
      else name == "User"
  {
  }

  /** An address that starts with '@' yields no local part, so the greeting
      falls back to "User". */
  lemma LeadingAtFallsBack(email: string)
    requires |email| > 0 && email[0] == '@'
    ensures DisplayName(Some(User(None, Some(email))), "") == "User"
  {
  }

  /** The appearance options in the order the modal lists them. */
  const ThemeOptions: seq<string> := ["system", "dark", "light"]

  /** The options whose circle shows the check mark for the current mode. */
  function CheckedOptions(themeMode: string): (r: seq<string>)
    ensures themeMode in ThemeOptions ==> r == [themeMode]
    ensures themeMode !in ThemeOptions ==> r == []
  {
    Filter(o => o == themeMode, ThemeOptions)
  }

  /** Tapping an option on a mounted provider checks exactly that option,
      whether or not the choice could be saved. */
  lemma TapChecksOption(p: ThemeContext.Provider, i: nat, persisted: bool)
    requires p.mounted && i < |ThemeOptions|
    ensures CheckedOptions(ThemeContext.Step(p, ThemeContext.Set(ThemeOptions[i], persisted)).mode)
            == [ThemeOptions[i]]
  {
  }

  /** A stored mode other than the three options is kept as it is: no option
      is checked and the light palette is used. */
  lemma UnknownSavedMode(system: ThemeContext.Scheme, saved: string)
    requires saved != "" && saved !in ThemeOptions
    ensures var p := ThemeContext.FinishLoad(ThemeContext.Mount(system), ThemeContext.Loaded(Some(saved)));
      CheckedOptions(p.mode) == [] && !p.isDark
  {
  }
}

=== FILE: recipes.dfy ===
/** The recipes screen: collecting TheMealDB meals for the pantry ingredients,
    de-duplicating them by `idMeal`, dropping failed detail lookups, the filter
    chips (all, healthy, quick, budget, uses expiring), the expiring-ingredient
    window and the title search. HTTP calls are inputs; dates are integer
    millisecond timestamps produced by an abstract parser. */
module Recipes {
  import opened Seqs
  import opened Strings

  /** A meal as listed by the filter-by-ingredient endpoint. */
  datatype MealSummary = MealSummary(idMeal: string, strMeal: string)

  /** A meal as returned by the lookup-by-id endpoint, reduced to the fields the
      screen reads; `ingredients[i]` is `strIngredient{i+1}`, `None` when it is
      not a string. */
  datatype Recipe = Recipe(idMeal: string, strMeal: string, strCategory: Option<string>,
                           strTags: Option<string>, ingredients: seq<Option<string>>)

  // ---------------------------------------------------------------------------
  // Fetch pipeline

  /** The meals of every ingredient response in turn; a response whose `meals`
      is null contributes nothing. */
  function CollectMeals(responses: seq<Option<seq<MealSummary>>>): (r: seq<MealSummary>)
    ensures forall m :: m in r <==> exists i :: 0 <= i < |responses| && responses[i].Some? && m in responses[i].value
    decreases |responses|
  {
    if |responses| == 0 then []
    else
      var rest := CollectMeals(responses[1..]);
      assert forall i :: 1 <= i < |responses| ==> responses[i] == responses[1..][i - 1];
      match responses[0]
      case Some(ms) => ms + rest
      case None => rest
  }

  /** No later meal in the list has the same id as meal `i`. */
  ghost predicate LastWithId(meals: seq<MealSummary>, i: int)
    requires 0 <= i < |meals|
  {
    forall j :: i < j < |meals| ==> meals[j].idMeal != meals[i].idMeal
  }

  /** The `reduce` into an object keyed by `idMeal`: every id appears once, each
      key holds a meal with that id, and the last meal with an id wins. The
      order `Object.values` then lists them in is left open. */
  function Dedupe(meals: seq<MealSummary>): (m: map<string, MealSummary>)
    ensures forall k :: k in m <==> exists i :: 0 <= i < |meals| && meals[i].idMeal == k
    ensures forall k :: k in m ==> m[k].idMeal == k && m[k] in meals
    ensures forall i :: 0 <= i < |meals| && LastWithId(meals, i) ==> m[meals[i].idMeal] == meals[i]
    decreases |meals|
  {
    if |meals| == 0 then map[]
    else
      var init := meals[..|meals| - 1];
      var last := meals[|meals| - 1];
      var acc := Dedupe(init);
      DedupeStep(meals, acc);
      acc[last.idMeal := last]
  }

  /** One step of the `reduce`: overwriting the last meal's key keeps the
      three properties of `Dedupe`. */
  lemma DedupeStep(meals: seq<MealSummary>, acc: map<string, MealSummary>)
    requires |meals| > 0
    requires var init := meals[..|meals| - 1];
      && (forall k :: k in acc <==> exists i :: 0 <= i < |init| && init[i].idMeal == k)
      && (forall k :: k in acc ==> acc[k].idMeal == k && acc[k] in init)
      && (forall i :: 0 <= i < |init| && LastWithId(init, i) ==> acc[init[i].idMeal] == init[i])
    ensures var last := meals[|meals| - 1];
      var m := acc[last.idMeal := last];
      && (forall k :: k in m <==> exists i :: 0 <= i < |meals| && meals[i].idMeal == k)
      && (forall k :: k in m ==> m[k].idMeal == k && m[k] in meals)
      && (forall i :: 0 <= i < |meals| && LastWithId(meals, i) ==> m[meals[i].idMeal] == meals[i])
  {
    var init := meals[..|meals| - 1];
    var last := meals[|meals| - 1];
    assert meals == init + [last];
    var m := acc[last.idMeal := last];
    forall k | k in m
      ensures exists i :: 0 <= i < |meals| && meals[i].idMeal == k
    {
      if k == last.idMeal {
        assert meals[|init|].idMeal == k;
      } else {
        var i :| 0 <= i < |init| && init[i].idMeal == k;
        assert meals[i] == init[i];
      }
    }
    forall i | 0 <= i < |meals| && LastWithId(meals, i)
      ensures m[meals[i].idMeal] == meals[i]
    {
      if i < |init| {
        assert meals[|init|] == last;
        assert meals[i] == init[i];
        assert LastWithId(init, i) by {
          forall j | i < j < |init|
            ensures init[j].idMeal != init[i].idMeal
          {
            assert meals[j] == init[j];
          }
        }
      }
    }
  }

  /** `detailedMeals.filter(Boolean)`: the lookups that returned a meal, in order. */
  function ValidMeals(details: seq<Option<Recipe>>): (r: seq<Recipe>)
    ensures |r| <= |details|
    ensures forall x :: x in r <==> Some(x) in details
    decreases |details|
  {
    if |details| == 0 then []
    else
      var rest := ValidMeals(details[1..]);
      assert details == [details[0]] + details[1..];
      match details[0]
      case Some(x) => [x] + rest
      case None => rest
  }

  /** The recipes after a fetch round: the valid detail results, or nothing
      when any request threw (the `catch` sets an empty list). */
  function LoadedRecipes(details: Option<seq<Option<Recipe>>>): (r: seq<Recipe>)
    ensures details.None? ==> r == []
    ensures details.Some? ==> forall x :: x in r <==> Some(x) in details.value
  {
    match details
    case Some(d) => ValidMeals(d)
    case None => []
  }

  // ---------------------------------------------------------------------------
  // Tags and categories

  const HealthyTags: set<string> := {"Vegetarian", "Vegan", "Soup", "SideDish", "Salad"}
  const HealthyCategories: set<string> := {"Vegetarian", "Vegan", "Soup", "Side", "Salad"}
  const QuickTags: set<string> := {"Onthego", "Streetfood", "Snack", "Breakfast", "SideDish"}
  const QuickCategories: set<string> := {"Breakfast", "Snack", "Side"}

  function TrimAll(parts: seq<string>): (r: seq<string>)
    ensures |r| == |parts|
    ensures forall i :: 0 <= i < |parts| ==> r[i] == Trim(parts[i])
  {
    seq(|parts|, i requires 0 <= i < |parts| => Trim(parts[i]))
  }

  /** `strTags` split on "," with each part trimmed, or no tags when absent
      or empty. */
  function Tags(recipe: Recipe): (tags: seq<string>)
    ensures recipe.strTags.None? || recipe.strTags.value == "" ==> tags == []
    ensures recipe.strTags.Some? && recipe.strTags.value != "" ==>
      var parts := Split(recipe.strTags.value, ',');
      |tags| == |parts| && forall i :: 0 <= i < |tags| ==> tags[i] == Trim(parts[i])
    ensures forall i :: 0 <= i < |tags| ==> ',' !in tags[i]
  {
    match recipe.strTags
    case Some(t) => if t == "" then [] else TrimAll(Split(t, ','))
    case None => []
  }

  /** `recipe.strCategory?.toLowerCase() || ""`. */
  function Category(recipe: Recipe): (c: string)
    ensures recipe.strCategory.None? ==> c == ""
    ensures recipe.strCategory.Some? ==>
      |c| == |recipe.strCategory.value| && forall i :: 0 <= i < |c| ==> c[i] == ToLowerChar(recipe.strCategory.value[i])
    ensures forall i :: 0 <= i < |c| ==> !IsUpper(c[i])
  {
    match recipe.strCategory
    case Some(c) => ToLower(c)
    case None => ""
  }

  predicate SomeTagIn(tags: seq<string>, names: set<string>)
  {
    exists t :: t in tags && t in names
  }

  /** The lower-cased category can never be one of the capitalised category
      names, so the category half of the healthy and quick tests is dead. */
  lemma CategoryNeverInSets(recipe: Recipe)
    ensures Category(recipe) !in HealthyCategories
    ensures Category(recipe) !in QuickCategories
  {
    var c := Category(recipe);
    LowerNotCapitalised(if recipe.strCategory.Some? then recipe.strCategory.value else "");
    assert c == "" || !IsUpper(c[0]);
    forall n | n in HealthyCategories + QuickCategories
      ensures |n| > 0 && IsUpper(n[0])
    {
    }
  }

  // ---------------------------------------------------------------------------
  // Expiring ingredients

  /** One pantry document as the screen loads it. */
  datatype PantryDoc = PantryDoc(name: Option<string>, expirationDate: Option<string>)

  /** An entry of `pantryItems`. */
  datatype PantryEntry = PantryEntry(name: string, expirationDate: Option<string>)

  /** The documents with a name, `expirationDate || null` for the date. */
  function LoadPantry(docs: seq<PantryDoc>): (r: seq<PantryEntry>)
    ensures |r| <= |docs|
    ensures forall e :: e in r ==> e.name != "" && (e.expirationDate.Some? ==> e.expirationDate.value != "")
    ensures forall d :: d in docs && d.name.Some? && d.name.value != "" ==>
      PantryEntry(d.name.value, if d.expirationDate == Some("") then None else d.expirationDate) in r
    ensures forall e :: e in r ==>
      exists d :: d in docs && d.name == Some(e.name) &&
                  e.expirationDate == if d.expirationDate == Some("") then None else d.expirationDate
    decreases |docs|
  {
    if |docs| == 0 then []
    else
      var rest := LoadPantry(docs[1..]);
      assert docs == [docs[0]] + docs[1..];
      var d := docs[0];
      match d.name
      case Some(n) =>
        if n == "" then rest
        else [PantryEntry(n, if d.expirationDate == Some("") then None else d.expirationDate)] + rest
      case None => rest
  }

  /** 1000 * 60 * 60 * 24. */
  const MsPerDay: int := 86_400_000

  /** `Math.ceil(a / b)` for integers. */
  function CeilDiv(a: int, b: int): (q: int)
    requires b > 0
    ensures b * (q - 1) < a <= b * q
  {
    var f := (-a) / b;
    assert b * f <= -a < b * f + b;
    -f
  }

  /** `mm/dd/yyyy` rearranged into the `${yyyy}-${mm}-${dd}` string handed to
      `new Date`; a missing part prints as "undefined". */
  function IsoDate(d: string): string
  {
    var parts := Split(d, '/');
    Part(parts, 2) + "-" + Part(parts, 0) + "-" + Part(parts, 1)
  }

  function Part(parts: seq<string>, i: nat): string
  {
    if i < |parts| then parts[i] else "undefined"
  }

  /** The parsed expiry of an entry: none when the date is missing or empty,
      otherwise whatever the date parser makes of the rearranged string (`None`
      standing for an invalid date). */
  function ExpiryOf(e: PantryEntry, parse: string -> Option<int>): Option<int>
  {
    match e.expirationDate
    case Some(d) => if d == "" then None else parse(IsoDate(d))
    case None => None
  }

  /** `expDate >= now && expDate <= soon`, with `soon` `daysAhead` days later. */
  predicate InWindow(e: PantryEntry, parse: string -> Option<int>, now: int, daysAhead: int)
  {
    var t := ExpiryOf(e, parse);
    t.Some? && now <= t.value <= now + daysAhead * MsPerDay
  }

  datatype ExpiringItem = ExpiringItem(name: string, daysLeft: int)

  /** The `map` step: the lower-cased name and the days left, rounded up. */
  function ToExpiring(e: PantryEntry, parse: string -> Option<int>, now: int): (x: ExpiringItem)
    requires ExpiryOf(e, parse).Some?
    ensures x.name == ToLower(e.name)
    ensures var diff := ExpiryOf(e, parse).value - now;
      MsPerDay * (x.daysLeft - 1) < diff <= MsPerDay * x.daysLeft
  {
    ExpiringItem(ToLower(e.name), CeilDiv(ExpiryOf(e, parse).value - now, MsPerDay))
  }

  /** `getExpiringIngredients(daysAhead)`: the pantry entries whose date lies
      in [now, now + daysAhead days], both ends included, with lower-cased
      names and a day count between 0 and `daysAhead`. */
  function GetExpiringIngredients(pantry: seq<PantryEntry>, parse: string -> Option<int>,
                                  now: int, daysAhead: int): (r: seq<ExpiringItem>)
    ensures |r| <= |pantry|
    ensures forall x :: x in r ==> 0 <= x.daysLeft <= daysAhead
    ensures forall e :: e in pantry && InWindow(e, parse, now, daysAhead) ==> ToExpiring(e, parse, now) in r
    ensures forall x :: x in r ==> exists e :: e in pantry && InWindow(e, parse, now, daysAhead) && x == ToExpiring(e, parse, now)
    decreases |pantry|
  {
    if |pantry| == 0 then []
    else
      var rest := GetExpiringIngredients(pantry[1..], parse, now, daysAhead);
      assert pantry == [pantry[0]] + pantry[1..];
      var e := pantry[0];
      if InWindow(e, parse, now, daysAhead) then
        var x := ToExpiring(e, parse, now);
        assert 0 <= x.daysLeft <= daysAhead by {
          var diff := ExpiryOf(e, parse).value - now;
          assert 0 <= diff <= MsPerDay * daysAhead;
        }
        [x] + rest
      else rest
  }

  /** The window is closed at both ends: an item expiring exactly now or exactly
      `daysAhead` days from now is kept (with 0 and `daysAhead` days left), one
      a day later is not, and an unparsable date is dropped. */
  lemma WindowBoundaries(e: PantryEntry, parse: string -> Option<int>, now: int, daysAhead: nat)
    ensures ExpiryOf(e, parse) == Some(now) ==>
      InWindow(e, parse, now, daysAhead) && ToExpiring(e, parse, now).daysLeft == 0
    ensures ExpiryOf(e, parse) == Some(now + daysAhead * MsPerDay) ==>
      InWindow(e, parse, now, daysAhead) && ToExpiring(e, parse, now).daysLeft == daysAhead
    ensures ExpiryOf(e, parse) == Some(now + (daysAhead + 1) * MsPerDay) ==> !InWindow(e, parse, now, daysAhead)
    ensures ExpiryOf(e, parse).None? ==> !InWindow(e, parse, now, daysAhead)
  {
  }

  /** `strIngredient{i+1}`; slots past the end are not strings. */
  function Slot(recipe: Recipe, i: nat): Option<string>
  {
    if i < |recipe.ingredients| then recipe.ingredients[i] else None
  }

  /** `typeof ing === "string" && ing.trim() !== ""`. */
  predicate Usable(o: Option<string>)
  {
    o.Some? && !Blank(o.value)
  }

  /** Every character is whitespace. */
  predicate Blank(s: string)
  {
    forall k :: 0 <= k < |s| ==> IsWhitespace(s[k])
  }

  /** `Usable` is the source's test: a string that does not trim to "". */
  lemma UsableIsNonBlankTrim(o: Option<string>)
    ensures Usable(o) <==> o.Some? && Trim(o.value) != ""
  {
  }

  const SlotCount: nat := 20

  function IngredientsFrom(recipe: Recipe, i: nat): (r: seq<string>)
    requires i <= SlotCount
    ensures forall j :: i <= j < SlotCount && Usable(Slot(recipe, j)) ==> ToLower(Slot(recipe, j).value) in r
    ensures forall x :: x in r ==>
      exists j :: i <= j < SlotCount && Usable(Slot(recipe, j)) && x == ToLower(Slot(recipe, j).value)
    decreases SlotCount - i
  {
    if i == SlotCount then []
    else
      var rest := IngredientsFrom(recipe, i + 1);
      var slot := Slot(recipe, i);
      if Usable(slot) then [ToLower(slot.value)] + rest else rest
  }

  /** The lower-cased non-blank strings among `strIngredient1..20`. */
  function Ingredients(recipe: Recipe): seq<string>
  {
    IngredientsFrom(recipe, 0)
  }

  /** Some ingredient of the recipe contains the expiring item's name. */
  predicate UsesItem(recipe: Recipe, x: ExpiringItem)
  {
    exists ing :: ing in Ingredients(recipe) && Contains(ing, x.name)
  }

  function UsesItemOf(recipe: Recipe): ExpiringItem -> bool
  {
    x => UsesItem(recipe, x)
  }

  /** `matchedExpiring`: the expiring entries some ingredient mentions, in order. */
  function MatchedExpiring(recipe: Recipe, expiring: seq<ExpiringItem>): (r: seq<ExpiringItem>)
    ensures forall x :: x in r <==> x in expiring && UsesItem(recipe, x)
    ensures forall x :: multiset(r)[x] == if UsesItem(recipe, x) then multiset(expiring)[x] else 0
    ensures IsSubsequence(r, expiring)
  {
    Filter(UsesItemOf(recipe), expiring)
  }

  // ---------------------------------------------------------------------------
  // Filters and search

  /** The predicate of `filteredRecipes` for the active chip. */
  predicate Matches(recipe: Recipe, key: string, expiring: seq<ExpiringItem>)
  {
    if key == "all" then true
    else
      var tags := Tags(recipe);
      var category := Category(recipe);
      if key == "healthy" then SomeTagIn(tags, HealthyTags) || category in HealthyCategories
      else if key == "quick" then SomeTagIn(tags, QuickTags) || category in QuickCategories
      else if key == "budget" then "budget" in tags || Contains(category, "miscellaneous")
      else if key == "expiring" then |expiring| > 0 && |MatchedExpiring(recipe, expiring)| > 0
      else true
  }

  /** What each chip actually tests. */
  lemma MatchesByKey(recipe: Recipe, key: string, expiring: seq<ExpiringItem>)
    ensures key == "healthy" ==> (Matches(recipe, key, expiring) <==> SomeTagIn(Tags(recipe), HealthyTags))
    ensures key == "quick" ==> (Matches(recipe, key, expiring) <==> SomeTagIn(Tags(recipe), QuickTags))
    ensures key == "budget" ==>
      (Matches(recipe, key, expiring) <==> "budget" in Tags(recipe) || Contains(Category(recipe), "miscellaneous"))
    ensures key == "expiring" ==>
      (Matches(recipe, key, expiring) <==> exists x :: x in expiring && UsesItem(recipe, x))
    ensures key !in {"healthy", "quick", "budget", "expiring"} ==> Matches(recipe, key, expiring)
  {
    CategoryNeverInSets(recipe);
    var m := MatchedExpiring(recipe, expiring);
    if exists x :: x in expiring && UsesItem(recipe, x) {
      var x :| x in expiring && UsesItem(recipe, x);
      assert x in m;
    }
  }

  function MatchesKey(key: string, expiring: seq<ExpiringItem>): Recipe -> bool
  {
    recipe => Matches(recipe, key, expiring)
  }

  /** `filteredRecipes`: the recipes passing the active chip, in order; "all"
      and any unknown key keep the list as it is. */
  function FilterRecipes(recipes: seq<Recipe>, key: string, expiring: seq<ExpiringItem>): (r: seq<Recipe>)
    ensures forall x :: x in r <==> x in recipes && Matches(x, key, expiring)
    ensures forall x :: multiset(r)[x] == if Matches(x, key, expiring) then multiset(recipes)[x] else 0
    ensures IsSubsequence(r, recipes)
    ensures key !in {"healthy", "quick", "budget", "expiring"} ==> r == recipes
  {
    if key !in {"healthy", "quick", "budget", "expiring"} then
      FilterAll(MatchesKey(key, expiring), recipes);
      Filter(MatchesKey(key, expiring), recipes)
    else Filter(MatchesKey(key, expiring), recipes)
  }

  /** The recipe's lower-cased title contains the lower-cased query. */
  predicate TitleMatches(query: string, recipe: Recipe)
  {
    Contains(ToLower(recipe.strMeal), ToLower(query))
  }

  function TitleMatchesQuery(query: string): Recipe -> bool
  {
    recipe => TitleMatches(query, recipe)
  }

  /** `searchedRecipes`: the list itself for an empty query, otherwise the
      recipes whose title contains the query case-insensitively, in order. */
  function Search(recipes: seq<Recipe>, query: string): (r: seq<Recipe>)
    ensures query == "" ==> r == recipes
    ensures query != "" ==> forall x :: x in r <==> x in recipes && TitleMatches(query, x)
    ensures query != "" ==> forall x :: multiset(r)[x] == if TitleMatches(query, x) then multiset(recipes)[x] else 0
    ensures IsSubsequence(r, recipes)
  {
    if query == "" then
      SubsequenceRefl(recipes);
      recipes
    else Filter(TitleMatchesQuery(query), recipes)
  }

  /** The list on screen: chip filter, then search. */
  function Visible(recipes: seq<Recipe>, key: string, expiring: seq<ExpiringItem>, query: string): seq<Recipe>
  {
    Search(FilterRecipes(recipes, key, expiring), query)
  }

  /** The list on screen is the recipes passing both the chip and the search,
      in their original order. */
  lemma VisibleIsOrderedSelection(recipes: seq<Recipe>, key: string, expiring: seq<ExpiringItem>, query: string)
    ensures IsSubsequence(Visible(recipes, key, expiring, query), recipes)
    ensures forall x :: x in Visible(recipes, key, expiring, query) <==>
      x in recipes && Matches(x, key, expiring) && (query == "" || TitleMatches(query, x))
    ensures forall x ::
      multiset(Visible(recipes, key, expiring, query))[x] ==
      if Matches(x, key, expiring) && (query == "" || TitleMatches(query, x)) then multiset(recipes)[x] else 0
  {
    if query != "" {
      FilterFilter(MatchesKey(key, expiring), TitleMatchesQuery(query), recipes);
      if key !in {"healthy", "quick", "budget", "expiring"} {
        FilterAll(MatchesKey(key, expiring), recipes);
      }
    }
  }

  /** The window the "expiring" chip asks for: the next 7 days. */
  const ExpiringWindowDays: int := 7

  /** The list on screen, with the expiring items computed from the pantry for
      the chip's 7-day window. */
  function ScreenRecipes(recipes: seq<Recipe>, key: string, pantry: seq<PantryEntry>,
                         parse: string -> Option<int>, now: int, query: string): seq<Recipe>
  {
    Visible(recipes, key, GetExpiringIngredients(pantry, parse, now, ExpiringWindowDays), query)
  }

  /** Under the "expiring" chip a loaded recipe is listed exactly when it passes
      the search and one of its ingredients mentions the lower-cased name of a
      pantry entry whose date falls within the next 7 days. */
  lemma ExpiringChipUsesWeek(recipes: seq<Recipe>, pantry: seq<PantryEntry>,
                             parse: string -> Option<int>, now: int, query: string)
    ensures forall x :: x in ScreenRecipes(recipes, "expiring", pantry, parse, now, query) <==>
      && x in recipes
      && (query == "" || TitleMatches(query, x))
      && exists e :: e in pantry && InWindow(e, parse, now, 7) && UsesItem(x, ToExpiring(e, parse, now))
  {
    var expiring := GetExpiringIngredients(pantry, parse, now, ExpiringWindowDays);
    VisibleIsOrderedSelection(recipes, "expiring", expiring, query);
    forall x | x in recipes
      ensures Matches(x, "expiring", expiring) <==>
        exists e :: e in pantry && InWindow(e, parse, now, 7) && UsesItem(x, ToExpiring(e, parse, now))
    {
      MatchesByKey(x, "expiring", expiring);
      if exists y :: y in expiring && UsesItem(x, y) {
        var y :| y in expiring && UsesItem(x, y);
        var e :| e in pantry && InWindow(e, parse, now, 7) && y == ToExpiring(e, parse, now);
      }
      if exists e :: e in pantry && InWindow(e, parse, now, 7) && UsesItem(x, ToExpiring(e, parse, now)) {
        var e :| e in pantry && InWindow(e, parse, now, 7) && UsesItem(x, ToExpiring(e, parse, now));
        assert ToExpiring(e, parse, now) in expiring;
      }
    }
  }
}

=== FILE: scanlock.dfy ===
/** The barcode-scanner state shared by the reusable scanner hook and the
    pantry "add item" screen: a re-entrancy lock, the visibility of the camera
    modal, and whether an alert whose OK button clears the lock is on screen.
    The transitions that both copies implement identically live here, together
    with the Open Food Facts product fields both copies read.

    The 500 ms `setTimeout` before each alert and the alert itself are reduced
    to `awaitingAck`; pressing a button of that alert is `Acknowledge`. */
module ScanLock {
  import opened Seqs
  import opened Strings

  datatype Scanner = Scanner(locked: bool, visible: bool, awaitingAck: bool)

  /** State on mount: `useState(false)` and `useRef(false)`, no alert. */
  const Initial := Scanner(false, false, false)

  /** Outcome of the camera-permission check in `openScanner`. */
  datatype Permission = AlreadyGranted | RequestGranted | RequestDenied

  /** `openScanner`: the lock is cleared first; the modal is shown unless the
      permission request was denied, in which case only a notice is shown and
      the modal keeps its visibility. */
  function OpenScanner(s: Scanner, permission: Permission): (t: Scanner)
    ensures !t.locked
    ensures permission != RequestDenied ==> t.visible
    ensures permission == RequestDenied ==> t.visible == s.visible
    ensures t.awaitingAck == s.awaitingAck
  {
    var unlocked := s.(locked := false);
    if permission == RequestDenied then unlocked else unlocked.(visible := true)
  }

  /** `closeScanner` in the hook and the modal's `onClose` in the screen. */
  function CloseScanner(s: Scanner): (t: Scanner)
    ensures !t.locked && !t.visible
    ensures t.awaitingAck == s.awaitingAck
  {
    s.(locked := false, visible := false)
  }

  /** The OK (or Cancel) button of a pending alert: every such button in both
      copies sets the lock to false. Without a pending alert nothing happens. */
  function Acknowledge(s: Scanner): (t: Scanner)
    ensures !t.awaitingAck && t.visible == s.visible
    ensures t.locked <==> s.locked && !s.awaitingAck
  {
    if s.awaitingAck then s.(locked := false, awaitingAck := false) else s
  }

  /** The guard at the top of `handleBarCodeScanned`: a scan while locked is
      refused; an accepted scan takes the lock and hides the modal. */
  function Gate(s: Scanner): (r: Option<Scanner>)
    ensures r.None? <==> s.locked
    ensures r.Some? ==> r.value.locked && !r.value.visible && r.value.awaitingAck == s.awaitingAck
  {
    if s.locked then None else Some(s.(locked := true, visible := false))
  }

  /** The camera is only ever on screen while it accepts a scan. */
  predicate ShownUnlocked(s: Scanner)
  {
    s.visible ==> !s.locked
  }

  /** What the Open Food Facts lookup returned, reduced to the fields read. */
  datatype Product = Product(productName: Option<string>, categoriesTags: Option<seq<string>>)

  /** The lookup: `status === 1` with a product, any other status, or a thrown
      fetch / JSON error. */
  datatype Resolution = Found(product: Product) | NotFound | Failed

  /** `product.product_name || "Unknown Product"`. */
  function ProductName(p: Product): (name: string)
    ensures name != ""
    ensures p.productName.Some? && p.productName.value != "" ==> name == p.productName.value
    ensures (p.productName.None? || p.productName.value == "") ==> name == "Unknown Product"
  {
    match p.productName
    case Some(n) => if n != "" then n else "Unknown Product"
    case None => "Unknown Product"
  }

  /** `product.categories_tags?.[0]?.replace("en:", "") || fallback`: the first
      "en:" anywhere in the first tag is removed, and an empty result (no tag,
      an empty tag, or the tag "en:" itself) gives the fallback. */
  function RawCategory(p: Product, fallback: string): (c: string)
    ensures fallback != "" ==> c != ""
    ensures p.categoriesTags.None? || p.categoriesTags.value == [] ==> c == fallback
    ensures p.categoriesTags.Some? && p.categoriesTags.value != [] ==>
      var tag := p.categoriesTags.value[0];
      forall i :: OccursAt(tag, "en:", i) && (forall j :: 0 <= j < i ==> !OccursAt(tag, "en:", j)) ==>
        c == if |tag| == 3 then fallback else tag[..i] + tag[i + 3..]
    ensures p.categoriesTags.Some? && p.categoriesTags.value != [] && p.categoriesTags.value[0] == "" ==> c == fallback
    ensures p.categoriesTags.Some? && p.categoriesTags.value != [] && "en:" <= p.categoriesTags.value[0]
            && |p.categoriesTags.value[0]| > 3
            ==> c == p.categoriesTags.value[0][3..]
    ensures p.categoriesTags.Some? && p.categoriesTags.value != [] && p.categoriesTags.value[0] != ""
            && (forall j :: !OccursAt(p.categoriesTags.value[0], "en:", j))
            ==> c == p.categoriesTags.value[0]
  {
    match p.categoriesTags
    case Some(tags) =>
      if |tags| == 0 then fallback
      else
        var stripped := RemoveFirst(tags[0], "en:");
        if stripped == "" then fallback else stripped
    case None => fallback
  }

  /** The prefix is removed wherever it first occurs, not only at the start. */
  lemma RawCategoryInnerPrefix()
    ensures RawCategory(Product(None, Some(["fr:en:x"])), "other") == "fr:x"
  {
    var tag := "fr:en:x";
    assert OccursAt(tag, "en:", 3);
    assert forall j :: 0 <= j < 3 ==> !OccursAt(tag, "en:", j) by {
      assert tag[0] != 'e' && tag[1] != 'e' && tag[2] != 'e';
    }
    assert tag[..3] + tag[6..] == "fr:x";
  }

  /** A tag that is only the prefix falls back. */
  lemma RawCategoryBarePrefix()
    ensures RawCategory(Product(None, Some(["en:"])), "other") == "other"
  {
  }
}

=== FILE: seqs.dfy ===
/** Generic sequence helpers shared by every screen of the model: an optional
    value, order-preserving filtering (JavaScript's `Array.prototype.filter`)
    and the subsequence relation that filtering establishes. */
module Seqs {

  /** A value that may be absent (`undefined`/`null` in the source). */
  datatype Option<T> = None | Some(value: T)

  /** `a` can be obtained from `b` by deleting elements, keeping the order. */
  ghost predicate IsSubsequence<T>(a: seq<T>, b: seq<T>)
    decreases |b|
  {
    if |b| == 0 then |a| == 0
    else (|a| > 0 && a[0] == b[0] && IsSubsequence(a[1..], b[1..])) || IsSubsequence(a, b[1..])
  }

  /** The empty sequence is a subsequence of every sequence. */
  lemma {:induction false} EmptySubsequence<T>(b: seq<T>)
    ensures IsSubsequence([], b)
    decreases |b|
  {
    if |b| > 0 {
      EmptySubsequence(b[1..]);
    }
  }

  /** Every sequence is a subsequence of itself. */
  lemma {:induction false} SubsequenceRefl<T>(b: seq<T>)
    ensures IsSubsequence(b, b)
    decreases |b|
  {
    if |b| > 0 {
      SubsequenceRefl(b[1..]);
    }
  }

  /** The elements of `s` that satisfy `p`, in their original order. */
  function Filter<T(==,!new)>(p: T -> bool, s: seq<T>): (r: seq<T>)
    ensures |r| <= |s|
    ensures forall x :: x in r <==> x in s && p(x)
    ensures forall x :: multiset(r)[x] == if p(x) then multiset(s)[x] else 0
    ensures IsSubsequence(r, s)
    decreases |s|
  {
    if |s| == 0 then []
    else
      assert s == [s[0]] + s[1..];
      if p(s[0]) then [s[0]] + Filter(p, s[1..]) else Filter(p, s[1..])
  }

  /** The conjunction of two predicates, as one predicate value. */
  function Both<T>(p: T -> bool, q: T -> bool): T -> bool
  {
    x => p(x) && q(x)
  }

  /** Filtering twice is filtering once by the conjunction. */
  lemma {:induction false} FilterFilter<T(!new)>(p: T -> bool, q: T -> bool, s: seq<T>)
    ensures Filter(q, Filter(p, s)) == Filter(Both(p, q), s)
    decreases |s|
  {
    if |s| > 0 {
      FilterFilter(p, q, s[1..]);
    }
  }

  /** Filtering by a predicate every element satisfies changes nothing. */
  lemma {:induction false} FilterAll<T(!new)>(p: T -> bool, s: seq<T>)
    requires forall i :: 0 <= i < |s| ==> p(s[i])
    ensures Filter(p, s) == s
    decreases |s|
  {
    if |s| > 0 {
      assert p(s[0]);
      assert forall i :: 0 <= i < |s| - 1 ==> s[1..][i] == s[i + 1];
      FilterAll(p, s[1..]);
      assert Filter(p, s) == [s[0]] + Filter(p, s[1..]);
    }
  }
}

=== FILE: strings.dfy ===
/** The JavaScript string operations the screens rely on, over `seq<char>`:
    ASCII case mapping (`toLowerCase`/`toUpperCase`), `includes`, `split` on a
    one-character separator, `join`, `trim` and `replace` with a string
    pattern (which replaces only the first occurrence). */
module Strings {
  import opened Seqs

  predicate IsUpper(c: char) { 'A' <= c <= 'Z' }

  predicate IsLower(c: char) { 'a' <= c <= 'z' }

  /** ASCII lower-casing of one character; every other character is kept. */
  function ToLowerChar(c: char): (d: char)
    ensures !IsUpper(d)
    ensures IsUpper(c) || d == c
  {
    if IsUpper(c) then (c as int + 32) as char else c
  }

  /** ASCII upper-casing of one character; every other character is kept. */
  function ToUpperChar(c: char): (d: char)
    ensures !IsLower(d)
    ensures IsLower(c) || d == c
  {
    if IsLower(c) then (c as int - 32) as char else c
  }

  /** `s.toLowerCase()` for ASCII letters. */
  function ToLower(s: string): (r: string)
    ensures |r| == |s|
    ensures forall i :: 0 <= i < |s| ==> r[i] == ToLowerChar(s[i])
  {
    seq(|s|, i requires 0 <= i < |s| => ToLowerChar(s[i]))
  }

  /** `needle` occurs in `s` starting at index `i`. */
  predicate OccursAt(s: string, needle: string, i: int)
  {
    0 <= i <= |s| - |needle| && s[i..i + |needle|] == needle
  }

  /** `hay.includes(needle)`. */
  predicate Contains(hay: string, needle: string)
    decreases |hay|
  {
    needle <= hay || (|hay| > 0 && Contains(hay[1..], needle))
  }

  /** `includes` holds exactly when the needle occurs at some index. */
  lemma {:induction false} ContainsIff(hay: string, needle: string)
    ensures Contains(hay, needle) <==> exists i :: OccursAt(hay, needle, i)
    decreases |hay|
  {
    assert needle <= hay <==> OccursAt(hay, needle, 0);
    if |hay| > 0 {
      ContainsIff(hay[1..], needle);
      forall i | 0 <= i
        ensures OccursAt(hay[1..], needle, i) <==> OccursAt(hay, needle, i + 1)
      {
        if i + |needle| <= |hay[1..]| {
          assert hay[1..][i..i + |needle|] == hay[i + 1..i + 1 + |needle|];
        }
      }
      if Contains(hay, needle) && !(needle <= hay) {
        var i :| OccursAt(hay[1..], needle, i);
        assert OccursAt(hay, needle, i + 1);
      }
      if exists i :: OccursAt(hay, needle, i) {
        var i :| OccursAt(hay, needle, i);
        if i > 0 {
          assert OccursAt(hay[1..], needle, i - 1);
        }
      }
    }
  }

  /** The first index at or after `k` where `pat` occurs, if any. */
  function IndexOfFrom(s: string, pat: string, k: nat): (r: Option<nat>)
    requires k <= |s|
    ensures r.Some? ==> k <= r.value && OccursAt(s, pat, r.value)
    ensures r.Some? ==> forall j :: k <= j < r.value ==> !OccursAt(s, pat, j)
    ensures r.None? ==> forall j :: k <= j ==> !OccursAt(s, pat, j)
    decreases |s| - k
  {
    if OccursAt(s, pat, k) then Some(k)
    else if k == |s| then None
    else IndexOfFrom(s, pat, k + 1)
  }

  /** `s.replace(pat, "")`: a string pattern removes only its first occurrence. */
  function RemoveFirst(s: string, pat: string): (r: string)
    ensures |r| == |s| || |r| + |pat| == |s|
    ensures pat <= s ==> r == s[|pat|..]
    ensures (forall j :: !OccursAt(s, pat, j)) ==> r == s
    ensures forall i :: OccursAt(s, pat, i) && (forall j :: 0 <= j < i ==> !OccursAt(s, pat, j)) ==>
      r == s[..i] + s[i + |pat|..]
  {
    match IndexOfFrom(s, pat, 0)
    case Some(i) =>
      assert pat <= s ==> OccursAt(s, pat, 0);
      s[..i] + s[i + |pat|..]
    case None => s
  }

  /** `s.split(sep)` for a one-character separator: at least one part, none of
      which contains the separator. */
  function Split(s: string, sep: char): (parts: seq<string>)
    ensures |parts| >= 1
    ensures forall i :: 0 <= i < |parts| ==> sep !in parts[i]
    decreases |s|
  {
    if |s| == 0 then [""]
    else
      var rest := Split(s[1..], sep);
      if s[0] == sep then [""] + rest else [[s[0]] + rest[0]] + rest[1..]
  }

  /** `parts.join(sep)`. */
  function Join(parts: seq<string>, sep: string): string
    decreases |parts|
  {
    if |parts| == 0 then ""
    else if |parts| == 1 then parts[0]
    else parts[0] + sep + Join(parts[1..], sep)
  }

  lemma JoinCons(w: string, ws: seq<string>, sep: string)
    ensures Join([w] + ws, sep) == if |ws| == 0 then w else w + sep + Join(ws, sep)
  {
  }

  /** Putting a character in front of the first part puts it in front of the
      joined string. */
  lemma JoinExtendsHead(first: char, word: string, tail: seq<string>, sep: string)
    ensures Join([[first] + word] + tail, sep) == [first] + Join([word] + tail, sep)
  {
    JoinCons([first] + word, tail, sep);
    JoinCons(word, tail, sep);
    if |tail| > 0 {
      var joined := Join(tail, sep);
      assert [first] + word + sep + joined == [first] + (word + sep + joined);
    }
  }

  /** Joining the parts of a split with the same separator gives back the string. */
  lemma {:induction false} JoinSplit(s: string, sep: char)
    ensures Join(Split(s, sep), [sep]) == s
    decreases |s|
  {
    if |s| > 0 {
      var rest := Split(s[1..], sep);
      JoinSplit(s[1..], sep);
      JoinCons(rest[0], rest[1..], [sep]);
      assert rest == [rest[0]] + rest[1..];
      if s[0] == sep {
        JoinCons("", rest, [sep]);
      } else {
        JoinCons([s[0]] + rest[0], rest[1..], [sep]);
      }
    }
  }

  /** The first part of a split is the text before the first separator, or the
      whole string when there is none. */
  lemma {:induction false} SplitHead(s: string, sep: char)
    ensures Split(s, sep)[0] <= s
    ensures Split(s, sep)[0] == s || s[|Split(s, sep)[0]|] == sep
    decreases |s|
  {
    if |s| > 0 && s[0] != sep {
      SplitHead(s[1..], sep);
    }
  }

  /** The whitespace and line terminators that ECMAScript's `trim` removes. */
  predicate IsWhitespace(c: char)
  {
    || c == '\t' || c == '\n' || c == '\U{000B}' || c == '\U{000C}' || c == '\r' || c == ' '
    || c == '\U{00A0}' || c == '\U{1680}' || '\U{2000}' <= c <= '\U{200A}'
    || c == '\U{2028}' || c == '\U{2029}' || c == '\U{202F}' || c == '\U{205F}'
    || c == '\U{3000}' || c == '\U{FEFF}'
  }

  /** `s` without its leading whitespace. */
  function TrimStart(s: string): (r: string)
    ensures |r| <= |s| && r == s[|s| - |r|..]
    ensures r == "" || !IsWhitespace(r[0])
    ensures forall i :: 0 <= i < |s| - |r| ==> IsWhitespace(s[i])
    decreases |s|
  {
    if |s| > 0 && IsWhitespace(s[0]) then TrimStart(s[1..]) else s
  }

  /** `s` without its trailing whitespace. */
  function TrimEnd(s: string): (r: string)
    ensures |r| <= |s| && r == s[..|r|]
    ensures r == "" || !IsWhitespace(r[|r| - 1])
    ensures forall i :: |r| <= i < |s| ==> IsWhitespace(s[i])
    decreases |s|
  {
    if |s| > 0 && IsWhitespace(s[|s| - 1]) then TrimEnd(s[..|s| - 1]) else s
  }

  /** `s.trim()`. */
  function Trim(s: string): string
  {
    TrimEnd(TrimStart(s))
  }

  /** A string trims to "" exactly when every character is whitespace. */
  lemma TrimEmptyIff(s: string)
    ensures Trim(s) == "" <==> forall i :: 0 <= i < |s| ==> IsWhitespace(s[i])
  {
  }

  /** A lower-cased string never starts with an upper-case letter. */
  lemma LowerNotCapitalised(s: string)
    ensures ToLower(s) == "" || !IsUpper(ToLower(s)[0])
  {
  }
}

=== FILE: themecolors.dfy ===
/** The two colour palettes of the app and `getThemeColors`. Both palettes are
    values of one record type, so they have the same fields by construction. */
module ThemeColors {

  datatype Palette = Palette(background: string, surface: string, text: string,
                             textSecondary: string, border: string, primary: string,
                             card: string, overlay: string)

  /** The brand green used as `primary` in both palettes. */
  const Brand: string := "#36AF27"

  const LightTheme: Palette := Palette("#ffffff", "#f6f6f6", "#222222", "#707070",
                                       "#e0e0e0", Brand, "#ffffff", "rgba(32,32,32,0.4)")

  const DarkTheme: Palette := Palette("#1a1a1a", "#2d2d2d", "#ffffff", "#b0b0b0",
                                      "#404040", Brand, "#333333", "rgba(0,0,0,0.6)")

  /** `getThemeColors`: the dark palette exactly when `isDark`, the light one
      otherwise; the primary colour does not depend on the flag. */
  function GetThemeColors(isDark: bool): (p: Palette)
    ensures p == DarkTheme <==> isDark
    ensures p == LightTheme <==> !isDark
    ensures p.primary == Brand
  {
    if isDark then DarkTheme else LightTheme
  }

  /** The two palettes differ in every field except `primary`, so the palette
      on screen tells which mode is in effect. */
  lemma PalettesDifferExceptPrimary()
    ensures LightTheme.background != DarkTheme.background
    ensures LightTheme.surface != DarkTheme.surface
    ensures LightTheme.text != DarkTheme.text
    ensures LightTheme.textSecondary != DarkTheme.textSecondary
    ensures LightTheme.border != DarkTheme.border
    ensures LightTheme.card != DarkTheme.card
    ensures LightTheme.overlay != DarkTheme.overlay
    ensures LightTheme.primary == DarkTheme.primary
  {
  }
}

=== FILE: themecontext.dfy ===
/** The theme provider: the mode loaded from storage, the `isDark` rule, the
    appearance listener that exists only in "system" mode, `setTheme`, and the
    `useTheme` guard. AsyncStorage calls are reduced to succeed-or-throw
    outcomes, the device's colour scheme is part of the modelled state, and the
    provider's life is a sequence of events. */
module ThemeContext {
  import opened Seqs

  /** `Appearance.getColorScheme()`: "light", "dark" or no preference. */
  datatype Scheme = LightScheme | DarkScheme | NoScheme

  /** The provider's state: `themeMode`, `isDark`, `isLoading`, the number of
      appearance listeners installed, whether it is mounted, and the device's
      current scheme. */
  datatype Provider = Provider(mode: string, isDark: bool, loading: bool, listeners: nat,
                               mounted: bool, system: Scheme)

  /** The one rule used on load, in `setTheme` and by the listener: follow the
      device in "system" mode, otherwise dark exactly for "dark". */
  function IsDarkFor(mode: string, system: Scheme): (dark: bool)
    ensures dark <==> mode == "dark" || (mode == "system" && system.DarkScheme?)
  {
    if mode == "system" then system.DarkScheme? else mode == "dark"
  }

  /** State right after mount: light, not dark, loading, and (the mode effect
      having run with "light") no listener. */
  function Mount(system: Scheme): (p: Provider)
    ensures p.loading && p.mounted && p.listeners == 0 && p.mode == "light" && !p.isDark
    ensures p.system == system
  {
    Provider("light", false, true, 0, true, system)
  }

  /** The `[themeMode]` effect after a mode change: the previous effect's
      cleanup removes any listener, and a listener is installed (with `isDark`
      set from the device) only in "system" mode. An unchanged mode does not
      re-run the effect. */
  function ChangeMode(p: Provider, mode: string): (q: Provider)
    ensures q.mode == mode && q.loading == p.loading && q.mounted == p.mounted && q.system == p.system
    ensures mode != p.mode ==> q.listeners == if mode == "system" then 1 else 0
    ensures mode == p.mode ==> q == p
    ensures mode != p.mode && mode == "system" ==> q.isDark == p.system.DarkScheme?
    ensures mode != "system" ==> q.isDark == p.isDark
  {
    if mode == p.mode then p
    else
      var cleaned := p.(mode := mode, listeners := 0);
      if mode == "system" then cleaned.(listeners := 1, isDark := p.system.DarkScheme?) else cleaned
  }

  /** `(saved as ThemeMode) || "light"`: any saved non-empty string is taken as
      it is. */
  function LoadedMode(saved: Option<string>): (mode: string)
    ensures mode != ""
    ensures saved.Some? && saved.value != "" ==> mode == saved.value
    ensures saved.None? || saved.value == "" ==> mode == "light"
  {
    match saved
    case Some(s) => if s != "" then s else "light"
    case None => "light"
  }

  /** What `AsyncStorage.getItem` did. */
  datatype LoadOutcome = Loaded(saved: Option<string>) | LoadThrew

  /** The load effect: on success the mode and `isDark` follow the saved value;
      a throw changes nothing; either way loading ends (`finally`). */
  function FinishLoad(p: Provider, outcome: LoadOutcome): (q: Provider)
    ensures !q.loading
    ensures outcome.LoadThrew? ==> q == p.(loading := false)
    ensures outcome.Loaded? ==> q.mode == LoadedMode(outcome.saved) && q.isDark == IsDarkFor(q.mode, p.system)
  {
    match outcome
    case LoadThrew => p.(loading := false)
    case Loaded(saved) =>
      var mode := LoadedMode(saved);
      ChangeMode(p, mode).(isDark := IsDarkFor(mode, p.system), loading := false)
  }

  /** `setTheme(mode)`: the mode is set before persisting; `isDark` is
      recomputed only when `AsyncStorage.setItem` succeeds. */
  function SetTheme(p: Provider, mode: string, persisted: bool): (q: Provider)
    ensures q.mode == mode
    ensures persisted ==> q.isDark == IsDarkFor(mode, p.system)
    ensures !persisted && (mode == p.mode || mode != "system") ==> q.isDark == p.isDark
    ensures mode != p.mode && mode == "system" ==> q.isDark == p.system.DarkScheme?
  {
    var changed := ChangeMode(p, mode);
    if persisted then changed.(isDark := IsDarkFor(mode, p.system)) else changed
  }

  /** A device scheme change: only an installed listener updates `isDark`. */
  function SchemeChanged(p: Provider, system: Scheme): (q: Provider)
    ensures q.system == system && q.mode == p.mode && q.listeners == p.listeners
    ensures p.listeners == 0 ==> q.isDark == p.isDark
    ensures p.listeners > 0 ==> q.isDark == system.DarkScheme?
  {
    p.(system := system, isDark := if p.listeners > 0 then system.DarkScheme? else p.isDark)
  }

  /** Unmount runs the effect cleanup. */
  function Unmount(p: Provider): (q: Provider)
    ensures q.listeners == 0 && !q.mounted
  {
    p.(listeners := 0, mounted := false)
  }

  datatype Event = Load(outcome: LoadOutcome) | Set(mode: string, persisted: bool) | DeviceScheme(system: Scheme) | Leave

  /** One event; state updates on an unmounted provider are dropped. */
  function Step(p: Provider, e: Event): Provider
  {
    match e
    case Load(outcome) => if p.mounted then FinishLoad(p, outcome) else p
    case Set(mode, persisted) => if p.mounted then SetTheme(p, mode, persisted) else p
    case DeviceScheme(system) => SchemeChanged(p, system)
    case Leave => Unmount(p)
  }

  /** At most one listener, and one exactly while mounted in "system" mode. */
  predicate ListenerInvariant(p: Provider)
  {
    p.listeners <= 1 && (p.listeners == 1 <==> p.mounted && p.mode == "system")
  }

  /** While mounted, `isDark` agrees with the rule for the current mode and
      device scheme. */
  predicate Coherent(p: Provider)
  {
    p.mounted ==> p.isDark == IsDarkFor(p.mode, p.system)
  }

  lemma StepKeepsListenerInvariant(p: Provider, e: Event)
    requires ListenerInvariant(p)
    ensures ListenerInvariant(Step(p, e))
  {
  }

  /** Every event keeps `isDark` coherent except a `setTheme` whose persisting
      fails and which switches into a mode other than "system"; a failed switch
      into "system" is repaired by the effect reading the device. */
  lemma StepKeepsCoherent(p: Provider, e: Event)
    requires ListenerInvariant(p) && Coherent(p)
    requires !(e.Set? && !e.persisted && e.mode != "system" && e.mode != p.mode)
    ensures Coherent(Step(p, e))
  {
  }

  /** A failing `setTheme("dark")` from light mode leaves the dark mode
      selected while the light palette stays in use. */
  lemma FailedPersistDesyncs()
    ensures var p := FinishLoad(Mount(LightScheme), Loaded(None));
      var q := SetTheme(p, "dark", false);
      Coherent(p) && q.mode == "dark" && !q.isDark && !Coherent(q)
  {
  }

  function Run(p: Provider, events: seq<Event>): Provider
    decreases |events|
  {
    if |events| == 0 then p else Run(Step(p, events[0]), events[1..])
  }

  /** From mount on, whatever happens, at most one listener exists and it
      exists exactly in "system" mode; if no save into a mode other than
      "system" fails, `isDark` always follows the rule. */
  lemma {:induction false} RunInvariants(p: Provider, events: seq<Event>)
    requires ListenerInvariant(p)
    ensures ListenerInvariant(Run(p, events))
    ensures Coherent(p) && (forall i :: 0 <= i < |events| ==> !(events[i].Set? && !events[i].persisted && events[i].mode != "system"))
            ==> Coherent(Run(p, events))
    decreases |events|
  {
    if |events| > 0 {
      StepKeepsListenerInvariant(p, events[0]);
      if Coherent(p) && !(events[0].Set? && !events[0].persisted && events[0].mode != "system") {
        StepKeepsCoherent(p, events[0]);
      }
      assert forall i :: 0 <= i < |events| - 1 ==> events[1..][i] == events[i + 1];
      RunInvariants(Step(p, events[0]), events[1..]);
    }
  }

  /** Mount starts in a state that satisfies both invariants. */
  lemma MountInvariants(system: Scheme)
    ensures ListenerInvariant(Mount(system)) && Coherent(Mount(system))
  {
  }

  /** What the provider hands to its children. */
  datatype ThemeValue = ThemeValue(themeMode: string, isDark: bool)

  /** Nothing is rendered while loading; afterwards the children see the mode
      and `isDark`. */
  function Rendered(p: Provider): (v: Option<ThemeValue>)
    ensures v.None? <==> p.loading
    ensures v.Some? ==> v.value == ThemeValue(p.mode, p.isDark)
  {
    if p.loading then None else Some(ThemeValue(p.mode, p.isDark))
  }

  datatype UseThemeResult = Value(value: ThemeValue) | Error(message: string)

  /** `useTheme`: the provided value, or an error outside a provider. */
  function UseTheme(context: Option<ThemeValue>): (r: UseThemeResult)
    ensures context.None? <==> r.Error?
    ensures context.Some? ==> r == Value(context.value)
  {
    match context
    case Some(v) => Value(v)
    case None => Error("useTheme must be used within ThemeProvider")
  }
}
